=== FILE: README.md ===
# PDF upload and issue-analysis client, modelled in Dafny

This project models the browser client in `app.js`. The client:

- lets a user choose one PDF and checks its type and size (20 MB ceiling);
- uploads it with a bearer token;
- polls the server until text extraction is ready;
- starts an analysis and polls it until it is `done` or `error`;
- fetches the result once and lays it out as a summary and one card per issue;
- can download the original PDF;
- can delete the upload, which resets the page.

The status, analysis, result, download and delete requests go through one gateway (`apiFetch`). There, a 401 runs a token prompt once and then fails, and other errors fail with a message taken from the body. The upload itself is sent by its own `XMLHttpRequest`, with its own 401 handling (the prompt, then the upload button re-enabled) and its own message extraction (`parseXhrError`, falling back to "Upload failed.").

The model is organised as the program is:

- `JsStrings`, `JsValues`: the JavaScript semantics the client relies on. These are ASCII lower-casing, `trim`, `includes`, truthiness, `||`, `??`, `?.`, property reads that throw on `null`/`undefined`, and object spread.
- `FileValidator`: `validateAndSetFile`.
- `StatusVocabulary`: the label table, badge-key normalization and the exact-match stop tests of the two polls.
- `ApiGateway`: `apiFetch`, `handleUnauthorized`, and the upload's own `parseXhrError`.
- `AnalysisResults`: `renderResults`, `createIssueCard`.
- `UploadMeta`: `updateUploadMeta`, `updateStatusBadge`, and the record shown right after an upload.
- `Session`: the module-level state and each action or timer tick as a pure transition.
- `Workflow`: the page as a transition system, with an invariant kept by every reachable state.
- `WorkflowProperties`: polling, failure and reset behaviour over runs of events.
- `Scenarios`: end-to-end runs from page load.

How the inputs are represented:

- Network replies, the token prompt's answer and the delete confirmation are inputs to the transitions.
- An interval timer is a flag. A tick of an armed timer is an event.
- A user action and the reply it awaits form one step.
- The upload, analyze and delete buttons are flags. The PDF download button is disabled and enabled at exactly the same lines as the delete button (app.js:168-169, 224-225, 570-571, 684-685), so the delete flag stands for both. A click on a disabled button does nothing.

The model follows the code, including where the code is surprising:

- The poll loops compare the raw status with exact, case-sensitive equality. So `READY` does not end the upload poll, and `completed` does not end the analysis poll, even though both are labelled and keyed as their synonyms (`StatusVocabulary.StopTestsIgnoreNormalization`).
- There is no generation fencing. A status reply that arrives after a reset is still merged into the upload record (`WorkflowProperties.LateStatusReplyIsApplied`).
- The token prompt takes any non-blank answer, but the upload sets its `Authorization` header synchronously, and a header value with a character above U+00FF makes `setRequestHeader` throw. The upload then stops after every button has been disabled, and no handler ever re-enables them (`WorkflowProperties.UnsendableTokenStrandsUpload`).
- The local file name shows only until the first status poll. The panel is then redrawn from the merged server record, which has no `filename` unless the server sent one (`Scenarios.PollWithoutServerName`).

## Model

| member | source | states |
|---|---|---|
| JsStrings.Lower | app.js:107 | Lower-casing keeps the length, maps each character through ASCII lower-casing, and yields an all-lower-case string |
| JsStrings.LowerOfLowerCase | app.js:322 | Lower-casing a string with no upper-case letter leaves it unchanged |
| JsStrings.ContainsIffOccurs | app.js:607 | `includes` holds exactly when the substring occurs at some index |
| JsStrings.TrimStart | app.js:636 | Drops exactly the leading whitespace: the result is a suffix, the dropped part is all whitespace, and the result does not start with whitespace |
| JsStrings.TrimEnd | app.js:636 | The result is a prefix of the string whose dropped part is all whitespace and whose last character, if any, is not whitespace |
| JsStrings.TrimStartEmpty | app.js:636 | Trimming the front leaves nothing exactly when the string is all whitespace |
| JsStrings.TrimEndEmpty | app.js:636 | Trimming the end leaves nothing exactly when the string is all whitespace |
| JsStrings.Trim | app.js:636-637 | `trim()` is empty exactly for all-whitespace input; otherwise it neither starts nor ends with whitespace and is the infix after the leading whitespace |
| JsStrings.TrimEndOfTrimStart | app.js:636-637 | Trimming front then end leaves a whitespace-free-edged infix, empty exactly for all-whitespace input |
| JsStrings.TrimEmptyIffAllWhitespace | app.js:636 | The two-pass trim is empty exactly for all-whitespace input |
| JsStrings.TrimFirstChar | app.js:636 | The trimmed string's first character is not whitespace |
| JsStrings.TrimInfix | app.js:636 | The trimmed string sits in the input right after the leading whitespace |
| JsStrings.TrimIdempotent | app.js:637 | Trimming a trimmed token changes nothing |
| JsStrings.LowerChar | app.js:107 | Lower-casing a character changes only A–Z |
| JsStrings.DigitChar | app.js:604 | The character for digit `d` is the one `d` places after `0` |
| JsStrings.NatToString | app.js:604 | A status code is written as a non-empty string of decimal digits with no leading zero |
| JsValues.Or | app.js:220 | `a \|\| b` is `a` when truthy and `b` otherwise |
| JsValues.Coalesce | app.js:220 | `a ?? b` is `a` unless it is `null`/`undefined` |
| JsValues.OrChainPicksFirstTruthy | app.js:465 | A chain of `\|\|` yields the first truthy operand, or the last one when none is |
| JsValues.IndexedEntries | app.js:250 | An array-like value contributes each element under its decimal index, and no other key |
| JsValues.OwnProperties | app.js:250 | Spreading an object copies exactly its fields; an array or string contributes each element (character) under its decimal index and only digit keys; other primitives contribute nothing |
| JsValues.Get | app.js:362 | A property read throws exactly on `null`/`undefined`; otherwise, for a key no JSON value inherits, it yields the own property or `undefined` |
| JsValues.GetOpt | app.js:336 | `v?.k` is `undefined` on a nullish `v` and the property otherwise |
| JsValues.Merge | app.js:250 | `{...a, ...b}` is an object with both key sets, `b`'s properties overriding `a`'s |
| JsValues.MergeIntoNull | app.js:250 | Spreading into a `null` record yields just the new properties |
| FileValidator.Validate | app.js:102-119 | A file is accepted exactly when it is a PDF by type or by case-insensitive `.pdf` suffix and at most 20 × 1024 × 1024 bytes; a non-PDF is rejected as such, before the size is looked at |
| FileValidator.MegabytesExceed | app.js:106-115 | The fractional megabyte comparison is the same as comparing bytes with the ceiling multiplied out |
| FileValidator.PdfSuffixIgnoresCase | app.js:107 | The name test holds exactly when the name ends in `.` followed by p, d, f in either case |
| FileValidator.CeilingIsInclusive | app.js:115 | A PDF of exactly the ceiling is accepted, one byte more is too large |
| FileValidator.ScenarioLargePdfRejected | app.js:102-119 | A 25 MB `report.pdf` is too large, a 5 MB one (any case) is accepted, a text file is not a PDF |
| StatusVocabulary.Normalize | app.js:320-333 | The badge key is lower-case, empty only for the empty status, never a synonym; each synonym in any casing folds to its target (`ready_for_analysis` to `ready`, `completed` to `done`, `queued`/`processing`/`running` to `analyzing`); any other status is just lower-cased |
| StatusVocabulary.NormalizeIdempotent | app.js:320-333 | Normalizing a badge key again does not change it |
| StatusVocabulary.NormalizeIgnoresCase | app.js:322 | A status and its lower-cased form get the same badge key |
| StatusVocabulary.FormatStatusLabel | app.js:302-318 | The label is never empty: "—" for the empty status, the table's label for a known status in any casing, the status verbatim otherwise |
| StatusVocabulary.LabelsOfSynonyms | app.js:304-317 | Both ready forms read "Ready" and both completion forms read "Done", in any casing |
| StatusVocabulary.LabelAgreesWithBadgeKey | app.js:294-299 | Labelling the badge key agrees with labelling the status, except for the three running synonyms, whose key reads "Analyzing" |
| StatusVocabulary.UnknownStatusKeepsCasing | app.js:317 | An unknown status is shown verbatim, so two casings differ in label while sharing a key |
| StatusVocabulary.FormatStatusLabelAsWritten | app.js:304-317 | The plain-object lookup returns an inherited prototype member for `constructor`/`__proto__` in any casing, and agrees with the corrected label otherwise |
| StatusVocabulary.PrototypeKeyShadowsStatus | app.js:317 | The status `Constructor` is labelled with an inherited member as written, but verbatim by the corrected lookup |
| StatusVocabulary.StopTestsIgnoreNormalization | app.js:253-264 | `READY` is keyed and labelled as ready yet does not stop the upload poll; `completed` is keyed and labelled as done yet does not stop the analysis poll |
| ApiGateway.DefaultMessage | app.js:604 | The default failure message is `Request failed (`, then decimal digits that denote the status, then `)` |
| ApiGateway.DefaultMessageNamesStatus | app.js:604 | Different statuses give different default messages |
| ApiGateway.ErrorMessage | app.js:603-619 | A failed request's message is truthy: a JSON body's `detail`, else its `message`, else the default; an unparsable body gives the default; a non-JSON body is used when non-empty |
| ApiGateway.ErrorMessageIsOrChain | app.js:609 | The JSON message is the first truthy of `detail`, `message` and the default |
| ApiGateway.Classify | app.js:603-630 | A non-2xx fails with the extracted message; 204 alone gives no content; a 2xx JSON body is returned parsed (or fails to parse); any other 2xx body is binary |
| ApiGateway.HandleUnauthorized | app.js:633-640 | The prompt's trimmed answer replaces the token when non-blank; a cancelled or blank answer keeps it |
| ApiGateway.HandleUnauthorizedKeepsTokenTrimmed | app.js:636-637 | A non-empty trimmed token stays non-empty and trimmed across the hook |
| ApiGateway.BearerCredential | app.js:593 | A credential read back from an `Authorization` header rebuilds that header |
| ApiGateway.BearerRoundTrip | app.js:593 | The token read back from the header built for it is the token |
| ApiGateway.RequestHeaders | app.js:589-595 | The sent headers always carry `Authorization`, holding the bearer token unless the caller overrides it, plus every caller header and nothing else |
| ApiGateway.ReplyOutcome | app.js:598-630 | A network failure rejects, a 401 fails as unauthorized, only a 2xx succeeds |
| ApiGateway.ApiFetch | app.js:588-631 | The `Authorization` header sent carries the current token; the hook runs at most once, exactly on a 401, and only it changes the token; the request is never retried |
| ApiGateway.ParseXhrError | app.js:642-653 | For JSON, `detail \|\| message`, or `null` when the body does not parse or is `null`; otherwise the body text |
| ApiGateway.UploadFailureMessage | app.js:210 | The upload's failure message is truthy, falling back to "Upload failed." exactly when the extraction is falsy |
| ApiGateway.FallbacksDiffer | app.js:210 | A JSON `null` body on a 500 reads "Request failed (500)" through the gateway but "Upload failed." through the upload |
| AnalysisResults.SeverityOf | app.js:463-464 | A falsy severity is low; a string maps case-insensitively to high or medium, and to low otherwise; a truthy non-string throws |
| AnalysisResults.DecodeIssue | app.js:455-501 | A card is built exactly when the issue is not nullish and its severity does not throw; its severity is the issue's severity class; its title, pages and excerpt are truthy; it has a rationale exactly when the issue's is truthy, and then it is that value |
| AnalysisResults.DecodeIssueAliasPriority | app.js:462-496 | Pages come from the first truthy of `page_range`, `pages`, `page`, "—"; the excerpt from `excerpt`, `text`, the fallback; the title from `title`, "Untitled issue" |
| AnalysisResults.DecodeIssuesFrom | app.js:446-448 | Every issue is laid out, only the first open, exactly when all decode; otherwise the cards before the first failing issue are kept and the rest are not reached |
| AnalysisResults.ConsMatch | app.js:446-448 | Prepending an issue's card to the cards of the rest gives the cards from that issue on |
| AnalysisResults.RenderResults | app.js:430-453 | A falsy result shows nothing; otherwise the summary is the document's when truthy and "No summary provided." otherwise, and the issues are the array's cards, or none for a non-array |
| AnalysisResults.ScenarioSingleHighIssue | app.js:455-501 | One issue with severity "High" and range "3-4" shows as one open high card with that range and the excerpt fallback |
| UploadMeta.StatusBadge | app.js:294-300 | The badge throws exactly for a truthy non-string; a falsy status shows "—" with no key; a string shows its label and badge key |
| UploadMeta.BadgeFor | app.js:262 | The badge the client sets for its own status word is the badge of that string |
| UploadMeta.PagesShown | app.js:283-287 | A numeric `pages` (even 0) wins, else a truthy `page_count`, else the previous count stays |
| UploadMeta.PageAliasesAsymmetric | app.js:283-287 | `pages: 0` is shown but `page_count: 0` is ignored; `pages` wins over `page_count` only when numeric |
| UploadMeta.UpdateUploadMeta | app.js:279-292 | A falsy record changes nothing; otherwise name, pages and size are refreshed before the badge, and a throwing badge leaves the old badge and the new fields |
| UploadMeta.StringStatusNeverThrows | app.js:291 | A record whose status is a string or falsy never makes the update throw |
| UploadMeta.UploadDisplayRecord | app.js:220 | The record shown after an upload is the response's own properties with `filename` from `\|\|` and `size_bytes` from `??`; it throws exactly on a nullish response |
| UploadMeta.DisplayRecordFallbacks | app.js:220 | An empty server name is replaced by the local one, while a server size of 0 is kept |
| Session.ValidateAndSetFile | app.js:102-135 | No file changes nothing; otherwise the file chosen becomes the selection exactly when it is accepted, a rejected one clears it, and the upload button tracks the selection; nothing else changes |
| Session.AsValue | app.js:622-630 | A 204 is `null` to the caller, JSON is its value, a binary body is an object with no own properties |
| Session.Fetch | app.js:588-631 | A request changes only the session token, as the gateway does, and resolves as the reply does |
| Session.UploadSelectedFile | app.js:147-233 | Starting an upload disarms both timers, forgets the analysis and disables every button. A token outside Latin-1 makes the header throw: nothing else happens, and every button stays disabled. Otherwise a failure keeps the record and re-enables the upload button. An accepted reply is stored. If it is `null`, or its panel refresh throws, the upload button is re-enabled. Otherwise the panel shows the display record, the delete button is enabled, the upload button stays disabled and the poll is armed exactly for a truthy `upload_id`. A 401 runs the hook |
| Session.UploadPoll | app.js:244-273 | A failed tick changes only the token, leaves the panel and keeps polling. A successful one merges the reply into the record and refreshes the panel from the merged record, with the `ready` badge for `ready_for_analysis`. The poll stops exactly on `ready`, `ready_for_analysis` or `error`, enabling analysis exactly for the first two. Nothing else changes |
| Session.TerminalStatusDoesNotThrow | app.js:250-251 | A reply with a string status passes it unchanged into the merged record, so the panel refresh cannot throw |
| Session.BeginAnalysis | app.js:335-372 | Without a truthy upload id nothing happens. Otherwise the result is cleared. A failure or `null` reply re-enables the button and keeps the analysis id and the panel. Any other reply stores its `analysis_id`, sets the `analyzing` badge and is polled exactly when the id is truthy. The upload, its poll and the upload and delete buttons never change |
| Session.AnalysisPoll | app.js:374-411 | A failure changes only the token and keeps polling. A reply with a status sets that status's badge, and `error` shows the error badge. A `null` reply or a throwing badge leaves the panel. The poll stops exactly on `done` or `error`, asks for the result exactly on `done`, and re-enables the button when it stops. Anything else keeps polling. Nothing else changes |
| Session.FetchAnalysisResult | app.js:417-428 | Without a truthy id nothing happens. A failure changes only the token. Success stores the result, whatever it is. The badge becomes `done` unless laying the result out throws; then the panel is left as it was |
| Session.ResetState | app.js:564-586 | Every session variable is cleared, both timers disarmed, every button disabled and the panel hidden. The token survives, and so do the hidden panel's name, pages, size and badge |
| Session.ResetStateIdempotent | app.js:564-586 | Resetting twice is resetting once |
| Session.DeleteCurrentUpload | app.js:546-562 | Without an upload id or confirmation nothing happens; a successful delete resets the session; a failed one changes only the token |
| Session.DownloadOriginalPdf | app.js:527-545 | Without a truthy upload id nothing happens; otherwise only the token can change, and only through the hook on a 401 |
| Workflow.InitialInvariant | app.js:8-14 | The page-load state satisfies the invariant |
| Workflow.TruthyNamedFieldIsObject | app.js:222 | A value with a truthy `upload_id` is an object |
| Workflow.FetchKeepsTokenTrimmed | app.js:633-640 | Any request keeps the token non-empty and trimmed |
| Workflow.ChooseFilePreserves | app.js:102-127 | Choosing a file keeps the invariant |
| Workflow.UploadPreserves | app.js:147-233 | An upload keeps the invariant |
| Workflow.UploadPollPreserves | app.js:247-273 | An upload poll tick keeps the invariant |
| Workflow.BeginAnalysisPreserves | app.js:335-372 | Starting an analysis keeps the invariant |
| Workflow.AnalysisPollPreserves | app.js:379-411 | An analysis poll tick keeps the invariant |
| Workflow.FetchResultPreserves | app.js:417-428 | Fetching the result after the poll stopped keeps the invariant |
| Workflow.AnalysisTimerPreserves | app.js:379-428 | A tick together with the fetch it triggers keeps the invariant |
| Workflow.DeletePreserves | app.js:546-562 | Deleting keeps the invariant |
| Workflow.DownloadPreserves | app.js:527-545 | Downloading the original PDF keeps the invariant |
| Workflow.StepPreservesInvariant | app.js:71-80 | Every event keeps the invariant: a valid selection, a trimmed token, an id behind every armed analysis timer and no stale result, a record behind the upload timer, never both timers, and the analyze button off while polling |
| Workflow.RunPreservesInvariant | app.js:71-80 | Any run of events from a state with the invariant keeps it |
| Workflow.ReachableStatesKeepInvariant | app.js:8-14 | Every state reachable from page load satisfies the invariant |
| WorkflowProperties.RunAppend | app.js:71-80 | Running two event sequences in turn is running their concatenation |
| WorkflowProperties.AnalysisPollsWithoutBound | app.js:379-414 | However many ticks report anything but exactly `done` or `error`, the timer stays armed and no result, id or record changes |
| WorkflowProperties.CompletedDoesNotEndAnalysis | app.js:385-392 | A reply of `completed` does not end the analysis poll |
| WorkflowProperties.DoneFetchesResultOnce | app.js:385-391 | A `done` tick disarms the timer, enables the button, stores the fetched result (or nothing on failure), and later ticks change nothing |
| WorkflowProperties.UnauthorizedTickKeepsPolling | app.js:598-600 | A 401 during either poll only runs the token prompt; the timer stays armed |
| WorkflowProperties.UploadPollSurvivesFailures | app.js:270-272 | Any number of failed status requests change nothing but the token |
| WorkflowProperties.TransientFailuresThenReady | app.js:253-272 | Failed status requests followed by `ready` or `ready_for_analysis` still end the upload poll with analysis enabled |
| WorkflowProperties.LateStatusReplyIsApplied | app.js:249-250 | A status reply landing after a reset becomes the whole upload record |
| Scenarios.ChooseReport | app.js:102-127 | Choosing a 5 MB PDF selects it and enables upload, changing nothing else |
| Scenarios.UploadWithoutServerName | app.js:216-225 | An accepted upload whose response has a truthy id, a string status and no `filename` shows the local name, stores the raw response, arms the poll and enables the delete button |
| Scenarios.PollWithoutServerName | app.js:250-253 | A non-terminal status reply without `filename`, merged into a record without one, keeps polling and leaves the panel showing "—" for the name |
| Scenarios.PollReadyForAnalysis | app.js:258-262 | `ready_for_analysis` with a numeric page count ends polling, enables analysis and shows the count and the ready badge |
| Scenarios.ScenarioUploadThenReady | app.js:147-277 | The upload run from page load: choose, upload, `extracting`, then `ready_for_analysis` with 12 pages |
| Scenarios.StartAnalysis | app.js:356-366 | A reply with a truthy `analysis_id` stores it, arms the poll and disables the button |
| Scenarios.PollInProgress | app.js:383-407 | A status other than `done`/`error` keeps polling, keeps the id and result, and shows that status's badge |
| Scenarios.PollDone | app.js:385-424 | A `done` tick whose result lays out stores the result, marks the badge done, stops polling and enables the button |
| Scenarios.ResultRenders | app.js:430-453 | The example result lays out without throwing |
| Scenarios.ScenarioAnalysis | app.js:335-428 | The analysis run: started as `a1`, `running`, then `done` with one issue stored as the result |
| Scenarios.BeginAnalysisUnauthorized | app.js:356-371 | A 401 on the analyze request updates the token through the hook, forgets the result, disarms the analysis poll and enables the button again. Nothing else changes, the analysis id and the panel included |
| Scenarios.AnalyzeUnauthorized | app.js:598-600 | A 401 on the analyze click runs the hook exactly once, takes the trimmed answer as the token and does not retry |
| Scenarios.TrimNewToken | app.js:637 | " new-token " trims to `new-token` |
| Scenarios.ScenarioUnauthorized | app.js:633-640 | With " new-token " typed at the prompt, the token becomes `new-token` and the button is enabled again |
| AnalysisResults.HighIssueCard | app.js:462-496 | An issue with severity "High" and range "3-4" decodes to a high card with that range and the excerpt fallback |
| JsStrings.TrimUnpadded | app.js:636-637 | A string with no whitespace at either end trims to itself |
| JsStrings.NatToStringDenotes | app.js:604 | The digits written for a number denote that number |
| JsStrings.NatToStringInjective | app.js:604 | Different numbers are written differently |
| JsStrings.Contains | app.js:607 | `includes` finds only substrings no longer than the string, and always finds a suffix |
| JsValues.Truthy | app.js:280 | A value is truthy exactly when it is none of `undefined`, `null`, `false`, `0` and `""` |
| FileValidator.IsPdf | app.js:107 | A file is a PDF exactly when its type is `application/pdf` or its name ends in `.` followed by p, d, f in either case |
| StatusVocabulary.UploadStopsOn | app.js:253-269 | The upload poll stops exactly on the strings `ready`, `ready_for_analysis` and `error`, compared case-sensitively |
| StatusVocabulary.UploadReadyOn | app.js:253-263 | Analysis is unblocked exactly on `ready` and `ready_for_analysis`, both of which stop the poll |
| StatusVocabulary.AnalysisStopsOn | app.js:385-399 | The analysis poll stops exactly on the strings `done` and `error`, compared case-sensitively |
| StatusVocabulary.StopStatusesAreCanonical | app.js:253-264 | Every stopping status is lower-case; the upload poll's are keyed `ready` or `error`, with analysis unblocked exactly for those keyed `ready`; the analysis poll's are no synonyms and key as themselves |
| ApiGateway.AuthorizationHeader | app.js:593 | The header value is `Bearer ` followed by exactly the token |
| ApiGateway.ParseXhrErrorAgreesWithErrorMessage | app.js:642-653 | Wherever the upload's extraction finds a message (truthy JSON `detail \|\| message`, or non-empty text) it is the gateway's message too, and then so is the upload's failure message |
| UploadMeta.BadgeClass | app.js:299 | The class is the bare base class exactly when there is no key, and the key can be read back from it |
| UploadMeta.PagesOnceShownStay | app.js:283-287 | A page count once shown is never cleared, and a record with neither `pages` nor `page_count` leaves it as it was |
| UploadMeta.UpdateUploadMetaIdempotent | app.js:279-292 | Refreshing the panel twice from one record is refreshing it once |
| UploadMeta.CompleteRecordDeterminesPanel | app.js:279-292 | A record with numeric `pages` and `size_bytes` and a string status determines the panel whatever it showed before |
| UploadMeta.CompleteResponseDisplayedAsIs | app.js:220 | A response with a truthy `filename` and a non-nullish `size_bytes` is displayed unchanged, whatever the local file |
| UploadMeta.UploadedPanelShowsName | app.js:220-282 | Right after an upload of a named file, the panel shows the server's name when truthy and the local name otherwise |
| Session.Initial | app.js:8-14 | At page load the token is `dev-token`, nothing is selected, uploaded or analysed, no timer is armed, every button is disabled and the panel is hidden |
| Session.ApplyUploadStatus | app.js:250-269 | A status reply is merged into the record. The panel is refreshed from the merged record and shows the `ready` badge for `ready_for_analysis`. The poll stops exactly on `ready`, `ready_for_analysis` or `error`, enabling analysis exactly for the first two; otherwise analysis stays as it was. Nothing else changes |
| Session.RefreshedPanel | app.js:251-262 | After an upload status reply the panel is the refresh from the merged record, with only the badge replaced by `ready` for `ready_for_analysis` |
| Session.ApplyAnalysisStatus | app.js:382-407 | A reply with a status sets that status's badge, and `error` shows the error badge. A `null` reply or a throwing badge leaves the panel. The poll stops exactly on `done` or `error`, asks for the result exactly on `done`, enables the button when it stops, and otherwise leaves it. Nothing else changes |
| Workflow.Step | app.js:71-80 | A click on a disabled upload, analyze, delete or download button, and a tick of a disarmed timer, change nothing |
| Workflow.ClickUploadStep | app.js:71-75 | A click on the enabled upload button is the upload |
| Workflow.UploadTimerStep | app.js:276 | A tick of the armed upload timer is one upload poll |
| Workflow.ClickAnalyzeStep | app.js:76 | A click on the enabled analyze button starts the analysis |
| Workflow.AnalysisTimerStep | app.js:385-391 | A tick of the armed analysis timer is one poll, followed by the result fetch exactly when the poll asks for it |
| Workflow.UploadKeepsTokenTrimmed | app.js:203-206 | An upload keeps the token non-empty and trimmed |
| Workflow.ApplyUploadStatusPreserves | app.js:250-269 | Applying an upload status reply keeps the invariant |
| Workflow.ApplyAnalysisStatusPreserves | app.js:382-407 | Applying an analysis status reply keeps the invariant |
| WorkflowProperties.PromptAcceptsUnsendableToken | app.js:635-637 | The prompt installs the answer `Ā`, a token outside Latin-1 that the header cannot carry |
| WorkflowProperties.UnsendableTokenStrandsUpload | app.js:152-179 | With a token outside Latin-1, an upload disarms both timers and keeps the token and the record, and afterwards no upload, analyze, delete or download click changes anything |
| WorkflowProperties.FailedUploadDisablesDelete | app.js:169 | After a failed upload the delete button is disabled, so a click on it does nothing, though the previous upload is still on record |

## Left out

- DOM rendering, toasts, the progress bar and its indeterminate animation, clipboard copy and JSON download are not modelled. They only display or export state. The PDF download is modelled only as far as it changes state: its request, whose 401 can replace the token (`Session.DownloadOriginalPdf`). Handing the file to the browser is not modelled.
- `formatBytes` is not modelled. The panel keeps the byte count, not its formatted text.
- The percentage text of the analysis poll is not modelled. It needs floating-point rounding and is display only.
- Numbers are integers. `NaN`, fractions and infinities are not modelled. The megabyte comparison uses exact rationals.
- Lower-casing covers ASCII only. `toLowerCase` on other scripts is not modelled.
- Values shown through text (`String(...)`, template literals, `textContent`, `new Error(message)`) are kept as values, not stringified. So the model misses one throw. A JSON object whose `toString` and `valueOf` cannot produce a primitive, such as `{"toString": 1}`, throws a TypeError when the client stringifies it (app.js:282, 286, 436, 468-497, 619). So does an array holding such an object, such as a `page_range` array, since stringifying an array stringifies its elements. The members named below state their throw conditions without that case.
- AnalysisResults.DecodeIssue: a title, page label, rationale or excerpt that is such an object also throws in the source; the model builds the card.
- AnalysisResults.RenderResults: a summary that is such an object also throws in the source; the model shows it.
- UploadMeta.UpdateUploadMeta: a file name or `page_count` that is such an object also throws in the source; `threw` covers only the badge.
- ApiGateway.ErrorMessage: a `detail` or `message` that is such an object makes `new Error` throw a TypeError in the source; the model keeps the value as the message.
- JsValues.Get: only non-inherited keys are modelled. A property read yields the own property or `undefined`. A key that a JSON value inherits from its prototype, such as `constructor` on an object or `length` on a string, is not modelled. Every other key the client reads from a server value is a named field that no JSON value inherits. The one inherited property it reads, the `length` of the issue array (app.js:441), is modelled as the length of the sequence.
- The `Error` messages of a network failure and of a JSON body that does not parse come from the engine. They are not modelled.
- A response stream that fails while its body is read is not modelled.
- Each action and the reply it awaits form one atomic step. Overlapping in-flight requests are not modelled. Neither are timers leaked by `setInterval` calls that overwrite a live handle, nor a second poll firing while one is in flight.
- Upload progress events are not modelled.
- The immediate first poll after arming a timer is modelled as the first timer event.
- The fire-and-forget result fetch after `done` is folded into the same step.
- The upload and analyze buttons are assumed disabled at page load. The page markup is not part of this model. The script itself disables the delete button (app.js:685).
- The token prompt's answer and the delete confirmation are inputs, not dialogs.
- The analyze request's body (the system prompt text) and the request paths are not modelled. The server is not part of this model.
- ApiGateway.ApiFetch: a token with a character above U+00FF also makes `fetch` reject with a TypeError before anything is sent. The model does not represent that rejection: it still lets such a request receive any reply. Only the upload's synchronous throw is modelled (`Session.UploadSelectedFile`).
- Session.Fetch: does not model the caller's `Content-Type` header or the request body. Only the token is checked.
- UploadMeta.StatusBadge: the thrown value is not modelled, only the fact that it throws. The badge uses the corrected label lookup `StatusVocabulary.FormatStatusLabel`, and so do `Session` and `Workflow`, which build every badge through it. For a status that lower-cases to `constructor` or `__proto__`, the source labels the badge with the inherited member instead (see Findings and `StatusVocabulary.FormatStatusLabelAsWritten`).

## Findings

| source | as written | input that shows it | evidently intended | confidence | as-written member | corrected member |
|---|---|---|---|---|---|---|
| app.js:304-317 | The label lookup reads a plain object literal. A lower-cased status naming an inherited member is labelled with that member (`Object` for `constructor`, `Object.prototype` for `__proto__`). | status `"Constructor"` | An unknown status is shown verbatim, so the label should be `Constructor` | low, not executed | StatusVocabulary.FormatStatusLabelAsWritten | StatusVocabulary.FormatStatusLabel |

=== FILE: analysis_results.dfy ===
/** How a finished analysis's result is read for display: the summary with
    its fallback, and one card per issue whose fields are decoded with
    defaults and alias priority. */
module AnalysisResults {
  import opened Wrappers
  import opened JsStrings
  import opened JsValues

  datatype Severity = High | Medium | Low

  /** One issue card: its title, severity class, page label, optional
      rationale, excerpt, and whether it starts expanded (only the first). */
  datatype IssueCard = IssueCard(title: Value, severity: Severity, pages: Value, rationale: Option<Value>, excerpt: Value, open: bool)

  const UntitledIssue: string := "Untitled issue"
  const NoExcerpt: string := "No excerpt provided."
  const NoPages: string := "—"
  const NoSummary: string := "No summary provided."

  /** The severity class: `(severity || 'low').toLowerCase()`, kept when it is
      one of high, medium, low and `low` otherwise. `None` when the field is a
      truthy non-string, on which `toLowerCase` throws. */
  function SeverityOf(raw: Value): (r: Option<Severity>)
    ensures !Truthy(raw) ==> r == Some(Low)
    ensures Truthy(raw) && !raw.Str? ==> r.None?
    ensures raw.Str? ==> r.Some?
    ensures raw.Str? ==> (r == Some(High) <==> Lower(raw.s) == "high")
    ensures raw.Str? ==> (r == Some(Medium) <==> Lower(raw.s) == "medium")
    ensures raw.Str? && Lower(raw.s) !in {"high", "medium"} ==> r == Some(Low)
  {
    match Or(raw, Str("low"))
    case Str(s) =>
      var severity := Lower(s);
      Some(if severity == "high" then High else if severity == "medium" then Medium else Low)
    case _ => None
  }

  /** `createIssueCard`: `None` when the issue is `null`/`undefined` (reading
      `title` throws) or its severity is a truthy non-string. */
  function DecodeIssue(issue: Value, open: bool): (r: Option<IssueCard>)
    ensures r.None? <==> IsNullish(issue) || SeverityOf(GetOpt(issue, "severity")).None?
    ensures r.Some? ==> r.value.open == open
    ensures r.Some? ==> Truthy(r.value.title) && Truthy(r.value.pages) && Truthy(r.value.excerpt)
    ensures r.Some? ==> Some(r.value.severity) == SeverityOf(GetOpt(issue, "severity"))
    ensures r.Some? ==> (r.value.rationale.Some? <==> Truthy(GetOpt(issue, "rationale")))
    ensures r.Some? && r.value.rationale.Some? ==> r.value.rationale.value == GetOpt(issue, "rationale")
  {
    match Get(issue, "title")
    case None => None
    case Some(rawTitle) =>
      var title := Or(rawTitle, Str(UntitledIssue));
      match SeverityOf(GetOpt(issue, "severity"))
      case None => None
      case Some(severity) =>
        var pages := Or(GetOpt(issue, "page_range"), Or(GetOpt(issue, "pages"), Or(GetOpt(issue, "page"), Str(NoPages))));
        var rationale := GetOpt(issue, "rationale");
        var excerpt := Or(GetOpt(issue, "excerpt"), Or(GetOpt(issue, "text"), Str(NoExcerpt)));
        Some(IssueCard(title, severity, pages, if Truthy(rationale) then Some(rationale) else None, excerpt, open))
  }

  /** The aliases are tried in a fixed order and the first truthy one wins:
      `page_range`, then `pages`, then `page`, else "—"; `excerpt`, then
      `text`, else the fallback; the title falls back when falsy. */
  lemma DecodeIssueAliasPriority(issue: Value, open: bool)
    requires DecodeIssue(issue, open).Some?
    ensures var c := DecodeIssue(issue, open).value;
      && c.pages == OrChain([GetOpt(issue, "page_range"), GetOpt(issue, "pages"), GetOpt(issue, "page"), Str(NoPages)])
      && c.excerpt == OrChain([GetOpt(issue, "excerpt"), GetOpt(issue, "text"), Str(NoExcerpt)])
      && c.title == OrChain([GetOpt(issue, "title"), Str(UntitledIssue)])
  {
    var ps := [GetOpt(issue, "page_range"), GetOpt(issue, "pages"), GetOpt(issue, "page"), Str(NoPages)];
    assert ps[1..][1..][1..] == [ps[3]];
    assert OrChain(ps[1..][1..]) == Or(ps[2], ps[3]);
    assert OrChain(ps[1..]) == Or(ps[1], Or(ps[2], ps[3]));
    var es := [GetOpt(issue, "excerpt"), GetOpt(issue, "text"), Str(NoExcerpt)];
    assert es[1..][1..] == [es[2]];
    assert OrChain(es[1..]) == Or(es[1], es[2]);
    var ts := [GetOpt(issue, "title"), Str(UntitledIssue)];
    assert ts[1..] == [ts[1]];
  }

  /** The result of laying out a list of issues: every card, or the cards
      appended before the first issue that throws (the rest are not
      reached). */
  datatype IssueList = AllCards(cards: seq<IssueCard>) | FailedAfter(prefix: seq<IssueCard>)

  /** `cards` are the cards of `issues[from..from + |cards|]`, in order. */
  predicate CardsMatch(issues: seq<Value>, from: nat, cards: seq<IssueCard>) {
    from + |cards| <= |issues|
    && forall i :: 0 <= i < |cards| ==> Some(cards[i]) == DecodeIssue(issues[from + i], from + i == 0)
  }

  /** Every issue from `from` on decodes. */
  predicate AllDecode(issues: seq<Value>, from: nat) {
    forall i :: from <= i < |issues| ==> DecodeIssue(issues[i], i == 0).Some?
  }

  /** The cards for `issues[from..]`, the one at index 0 opened. */
  function DecodeIssuesFrom(issues: seq<Value>, from: nat): (r: IssueList)
    requires from <= |issues|
    ensures r.AllCards? <==> AllDecode(issues, from)
    ensures r.AllCards? ==> |r.cards| == |issues| - from && CardsMatch(issues, from, r.cards)
    ensures r.FailedAfter? ==> CardsMatch(issues, from, r.prefix) && from + |r.prefix| < |issues|
    ensures r.FailedAfter? ==> DecodeIssue(issues[from + |r.prefix|], from + |r.prefix| == 0).None?
    decreases |issues| - from
  {
    if from == |issues| then AllCards([])
    else
      match DecodeIssue(issues[from], from == 0)
      case None => FailedAfter([])
      case Some(card) =>
        var rest := DecodeIssuesFrom(issues, from + 1);
        ConsMatch(issues, from, card, if rest.AllCards? then rest.cards else rest.prefix);
        match rest
        case AllCards(cards) => AllCards([card] + cards)
        case FailedAfter(prefix) => FailedAfter([card] + prefix)
  }

  lemma ConsMatch(issues: seq<Value>, from: nat, card: IssueCard, cards: seq<IssueCard>)
    requires from < |issues| && Some(card) == DecodeIssue(issues[from], from == 0)
    requires CardsMatch(issues, from + 1, cards)
    ensures CardsMatch(issues, from, [card] + cards)
    ensures AllDecode(issues, from + 1) ==> AllDecode(issues, from)
  {
    var cs := [card] + cards;
    forall i | 0 <= i < |cs|
      ensures Some(cs[i]) == DecodeIssue(issues[from + i], from + i == 0)
    {
      if i > 0 {
        assert cs[i] == cards[i - 1];
      }
    }
  }

  /** What `renderResults` puts on screen: nothing for a falsy result, the
      summary and the issue list otherwise. */
  datatype Rendering = Skipped | Shown(summary: Value, issues: IssueList)

  /** `renderResults`: `issues` is used only when it is an array; anything
      else reads as no issues. */
  function RenderResults(result: Value): (r: Rendering)
    ensures r.Skipped? <==> !Truthy(result)
    ensures r.Shown? ==> Truthy(r.summary)
    ensures r.Shown? && Truthy(GetOpt(result, "document_summary")) ==> r.summary == GetOpt(result, "document_summary")
    ensures r.Shown? && !Truthy(GetOpt(result, "document_summary")) ==> r.summary == Str(NoSummary)
    ensures r.Shown? && !GetOpt(result, "issues").Arr? ==> r.issues == AllCards([])
    ensures r.Shown? && GetOpt(result, "issues").Arr? ==> r.issues == DecodeIssuesFrom(GetOpt(result, "issues").items, 0)
  {
    if !Truthy(result) then Skipped
    else
      var summary := Or(GetOpt(result, "document_summary"), Str(NoSummary));
      var raw := GetOpt(result, "issues");
      var issues := if raw.Arr? then raw.items else [];
      Shown(summary, DecodeIssuesFrom(issues, 0))
  }

  /** A rendering throws exactly when some issue fails to decode. */
  predicate Threw(r: Rendering) {
    r.Shown? && r.issues.FailedAfter?
  }

  /** The worked example: one issue with title "Missing signature block",
      severity "High" and page range "3-4" shows as one open card with the
      `high` class, the range as its pages and the excerpt fallback. */
  lemma ScenarioSingleHighIssue()
    ensures var issue := Obj(map["title" := Str("Missing signature block"), "severity" := Str("High"), "page_range" := Str("3-4")]);
      var result := Obj(map["document_summary" := Str("Summary"), "issues" := Arr([issue])]);
      RenderResults(result) == Shown(Str("Summary"), AllCards([IssueCard(Str("Missing signature block"), High, Str("3-4"), None, Str(NoExcerpt), true)]))
  {
    var issue := Obj(map["title" := Str("Missing signature block"), "severity" := Str("High"), "page_range" := Str("3-4")]);
    HighIssueCard();
    assert DecodeIssuesFrom([issue], 1) == AllCards([]);
  }

  lemma HighIssueCard()
    ensures DecodeIssue(Obj(map["title" := Str("Missing signature block"), "severity" := Str("High"), "page_range" := Str("3-4")]), true)
      == Some(IssueCard(Str("Missing signature block"), High, Str("3-4"), None, Str(NoExcerpt), true))
  {
    assert Lower("High") == "high";
  }
}

=== FILE: api_gateway.dfy ===
/** The one place that talks to the server: every request carries the
    session's bearer token, a 401 runs the credential-recovery prompt and
    then fails, any other non-2xx fails with a message taken from the body,
    and a success is returned as nothing (204), parsed JSON, or a binary
    payload. Also the message extraction for the upload request, which goes
    through its own XMLHttpRequest. */
module ApiGateway {
  import opened Wrappers
  import opened JsStrings
  import opened JsValues

  /** A response as the client sees it: the status code, the Content-Type
      header (the empty string when absent), the body text, and the result of
      parsing that text as JSON (`None` when parsing throws). */
  datatype HttpResponse = HttpResponse(status: nat, contentType: string, text: string, json: Option<Value>)

  /** What a request comes back with: a network-level failure (the request
      promise rejects), or a response. */
  datatype Reply = NetworkFailure | Responded(response: HttpResponse)

  /** One request's nondeterministic inputs: the reply, and what the user
      types into the token prompt should the reply be a 401 (`None` when the
      prompt is cancelled). */
  datatype Exchange = Exchange(reply: Reply, promptInput: Option<string>)

  /** A successful result: nothing (204), a parsed JSON value, or a binary
      payload. */
  datatype ApiBody = NoContent | JsonBody(value: Value) | BlobBody

  /** Why a request failed. A network failure and a JSON body that does not
      parse carry the engine's own message, which is not modelled. */
  datatype ApiError =
    | TransportError
    | Unauthorized
    | RequestFailed(message: Value)
    | MalformedJson

  const UnauthorizedMessage: string := "Unauthorized. Update the API token and try again."

  /** `response.ok`. */
  predicate IsOk(status: nat) {
    200 <= status <= 299
  }

  /** The Content-Type header mentions `application/json`. */
  predicate DeclaresJson(r: HttpResponse) {
    Contains(r.contentType, "application/json")
  }

  const DefaultPrefix: string := "Request failed ("

  /** `Request failed (<status>)`: the prefix, the status in decimal, and a
      closing parenthesis. */
  function DefaultMessage(status: nat): (m: string)
    ensures |m| > |DefaultPrefix| + 1 && m[..|DefaultPrefix|] == DefaultPrefix && m[|m| - 1] == ')'
    ensures IsDigits(m[|DefaultPrefix|..|m| - 1]) && DigitsValue(m[|DefaultPrefix|..|m| - 1]) == status
  {
    var digits := NatToString(status);
    var m := DefaultPrefix + digits + ")";
    NatToStringDenotes(status);
    assert m[|DefaultPrefix|..|m| - 1] == digits;
    m
  }

  /** Different statuses give different default messages. */
  lemma DefaultMessageNamesStatus(a: nat, b: nat)
    requires DefaultMessage(a) == DefaultMessage(b)
    ensures a == b
  {
  }

  /** The message of a failed request: for a JSON body, its `detail`, else its
      `message`, else the default; a body that does not parse falls back to
      the default; any other body is used as the message when non-empty. */
  function ErrorMessage(r: HttpResponse): (m: Value)
    ensures Truthy(m)
    ensures DeclaresJson(r) && r.json.Some? && Truthy(GetOpt(r.json.value, "detail")) ==>
      m == GetOpt(r.json.value, "detail")
    ensures DeclaresJson(r) && r.json.Some? && !Truthy(GetOpt(r.json.value, "detail")) && Truthy(GetOpt(r.json.value, "message")) ==>
      m == GetOpt(r.json.value, "message")
    ensures DeclaresJson(r) && r.json.Some? && !Truthy(GetOpt(r.json.value, "detail")) && !Truthy(GetOpt(r.json.value, "message")) ==>
      m == Str(DefaultMessage(r.status))
    ensures DeclaresJson(r) && r.json.None? ==> m == Str(DefaultMessage(r.status))
    ensures !DeclaresJson(r) && r.text != "" ==> m == Str(r.text)
    ensures !DeclaresJson(r) && r.text == "" ==> m == Str(DefaultMessage(r.status))
  {
    var fallback := Str(DefaultMessage(r.status));
    if DeclaresJson(r) then
      match r.json
      case None => fallback
      case Some(data) => Or(GetOpt(data, "detail"), Or(GetOpt(data, "message"), fallback))
    else if r.text != "" then Str(r.text)
    else fallback
  }

  /** The JSON message is the first truthy of `detail`, `message` and the
      default, read left to right. */
  lemma ErrorMessageIsOrChain(r: HttpResponse)
    requires DeclaresJson(r) && r.json.Some?
    ensures ErrorMessage(r) == OrChain([GetOpt(r.json.value, "detail"), GetOpt(r.json.value, "message"), Str(DefaultMessage(r.status))])
  {
    var vs := [GetOpt(r.json.value, "detail"), GetOpt(r.json.value, "message"), Str(DefaultMessage(r.status))];
    assert vs[1..] == [vs[1], vs[2]];
    assert vs[1..][1..] == [vs[2]];
    assert OrChain(vs[1..][1..]) == vs[2];
    assert OrChain(vs[1..]) == Or(vs[1], vs[2]);
    assert OrChain(vs) == Or(vs[0], Or(vs[1], vs[2]));
  }

  /** What a response other than a 401 resolves to. */
  function Classify(r: HttpResponse): (res: Result<ApiBody, ApiError>)
    requires r.status != 401
    ensures res.Ok? ==> IsOk(r.status)
    ensures !IsOk(r.status) ==> res == Err(RequestFailed(ErrorMessage(r)))
    ensures res == Ok(NoContent) <==> r.status == 204
    ensures IsOk(r.status) && r.status != 204 && DeclaresJson(r) ==>
      res == (if r.json.Some? then Ok(JsonBody(r.json.value)) else Err(MalformedJson))
    ensures IsOk(r.status) && r.status != 204 && !DeclaresJson(r) ==> res == Ok(BlobBody)
  {
    if !IsOk(r.status) then Err(RequestFailed(ErrorMessage(r)))
    else if r.status == 204 then Ok(NoContent)
    else if DeclaresJson(r) then
      match r.json
      case Some(v) => Ok(JsonBody(v))
      case None => Err(MalformedJson)
    else Ok(BlobBody)
  }

  /** The credential-recovery hook: the prompt's answer, trimmed, replaces
      the token only when something is left after trimming; a cancelled or
      blank answer keeps the token. */
  function HandleUnauthorized(token: string, promptInput: Option<string>): (r: string)
    ensures promptInput.Some? && Trim(promptInput.value) != "" ==> r == Trim(promptInput.value)
    ensures promptInput.None? || Trim(promptInput.value) == "" ==> r == token
  {
    match promptInput
    case None => token
    case Some(input) =>
      if input != "" && Trim(input) != "" then Trim(input) else token
  }

  /** A token that is non-empty and trimmed stays so across the hook. */
  lemma HandleUnauthorizedKeepsTokenTrimmed(token: string, promptInput: Option<string>)
    requires token != "" && Trim(token) == token
    ensures var t := HandleUnauthorized(token, promptInput); t != "" && Trim(t) == t
  {
    if promptInput.Some? {
      TrimIdempotent(promptInput.value);
    }
  }

  /** A header value the browser accepts: the ByteString conversion of the
      Web IDL standard rejects, with a TypeError, any code unit above
      U+00FF. `Bearer ` itself is safe, so this is a test of the token. */
  predicate HeaderSafe(token: string) {
    forall i :: 0 <= i < |token| ==> token[i] as int <= 0xFF
  }

  /** The Authorization header value of section 2.1 of RFC 6750. */
  function AuthorizationHeader(token: string): (h: string)
    ensures |h| == |token| + 7 && h[..7] == "Bearer " && h[7..] == token
  {
    "Bearer " + token
  }

  /** Reads the credential back out of an Authorization header value. */
  function BearerCredential(header: string): (r: Option<string>)
    ensures r.Some? ==> AuthorizationHeader(r.value) == header
  {
    if |header| >= 7 && header[..7] == "Bearer " then Some(header[7..]) else None
  }

  /** Every token is recovered from the header built for it. */
  lemma BearerRoundTrip(token: string)
    ensures BearerCredential(AuthorizationHeader(token)) == Some(token)
  {
    assert AuthorizationHeader(token)[..7] == "Bearer ";
    assert AuthorizationHeader(token)[7..] == token;
  }

  /** The headers sent: the bearer credential first, then the caller's own
      headers, which win on a clash. */
  function RequestHeaders(token: string, extra: map<string, string>): (h: map<string, string>)
    ensures "Authorization" in h
    ensures "Authorization" !in extra ==> BearerCredential(h["Authorization"]) == Some(token)
    ensures forall k :: k in extra ==> k in h && h[k] == extra[k]
    ensures h.Keys == extra.Keys + {"Authorization"}
  {
    BearerRoundTrip(token);
    map["Authorization" := AuthorizationHeader(token)] + extra
  }

  /** One call: the header sent, the token afterwards, the outcome, and how
      often the unauthorized hook ran. */
  datatype ApiCall = ApiCall(sentAuthorization: string, token: string, outcome: Result<ApiBody, ApiError>, hookRuns: nat)

  /** What a reply resolves to: a network failure rejects, a 401 fails as
      unauthorized (after the hook), everything else is classified. */
  function ReplyOutcome(reply: Reply): (res: Result<ApiBody, ApiError>)
    ensures reply.NetworkFailure? ==> res == Err(TransportError)
    ensures reply.Responded? && reply.response.status == 401 ==> res == Err(Unauthorized)
    ensures res.Ok? ==> reply.Responded? && IsOk(reply.response.status)
  {
    match reply
    case NetworkFailure => Err(TransportError)
    case Responded(r) => if r.status == 401 then Err(Unauthorized) else Classify(r)
  }

  /** `apiFetch`: one request, never retried. The unauthorized hook runs
      exactly for a 401, and only it can change the token. */
  function ApiFetch(token: string, ex: Exchange): (c: ApiCall)
    ensures BearerCredential(c.sentAuthorization) == Some(token)
    ensures c.outcome == ReplyOutcome(ex.reply)
    ensures c.hookRuns <= 1
    ensures c.hookRuns == 1 <==> ex.reply.Responded? && ex.reply.response.status == 401
    ensures c.hookRuns == 1 ==> c.outcome == Err(Unauthorized) && c.token == HandleUnauthorized(token, ex.promptInput)
    ensures c.hookRuns == 0 ==> c.token == token
  {
    var header := RequestHeaders(token, map[])["Authorization"];
    match ex.reply
    case NetworkFailure => ApiCall(header, token, Err(TransportError), 0)
    case Responded(r) =>
      if r.status == 401 then ApiCall(header, HandleUnauthorized(token, ex.promptInput), Err(Unauthorized), 1)
      else ApiCall(header, token, Classify(r), 0)
  }

  /** `parseXhrError`: for a JSON body, `detail || message`, which may be
      falsy; `null` when the body does not parse or parses to `null` (the
      property read throws and is caught); any other body is returned as
      text, possibly empty. */
  function ParseXhrError(r: HttpResponse): (m: Value)
    ensures DeclaresJson(r) && (r.json.None? || IsNullish(r.json.value)) ==> m == Null
    ensures DeclaresJson(r) && r.json.Some? && !IsNullish(r.json.value) ==>
      m == Or(GetOpt(r.json.value, "detail"), GetOpt(r.json.value, "message"))
    ensures !DeclaresJson(r) ==> m == Str(r.text)
  {
    if DeclaresJson(r) then
      match r.json
      case None => Null
      case Some(data) =>
        match Get(data, "detail")
        case None => Null
        case Some(detail) => Or(detail, GetOpt(data, "message"))
    else Str(r.text)
  }

  /** The upload's extraction agrees with the gateway's wherever it finds a
      message: a JSON body whose `detail || message` is truthy, or a
      non-empty plain-text body, yields the same message both ways. */
  lemma ParseXhrErrorAgreesWithErrorMessage(r: HttpResponse)
    ensures DeclaresJson(r) && Truthy(ParseXhrError(r)) ==> ParseXhrError(r) == ErrorMessage(r)
    ensures !DeclaresJson(r) && r.text != "" ==> ParseXhrError(r) == ErrorMessage(r)
    ensures Truthy(ParseXhrError(r)) ==> UploadFailureMessage(r) == ErrorMessage(r)
  {
  }

  /** The upload's error message: `parseXhrError(xhr) || 'Upload failed.'`. */
  function UploadFailureMessage(r: HttpResponse): (m: Value)
    ensures Truthy(m)
    ensures !Truthy(ParseXhrError(r)) ==> m == Str("Upload failed.")
    ensures Truthy(ParseXhrError(r)) ==> m == ParseXhrError(r)
  {
    Or(ParseXhrError(r), Str("Upload failed."))
  }

  /** The two extractions differ in their fallback: a JSON body `null` on a
      500 reads "Request failed (500)" through `apiFetch` but "Upload
      failed." through the upload request. */
  lemma FallbacksDiffer()
    ensures var r := HttpResponse(500, "application/json", "null", Some(Null));
      && ErrorMessage(r) == Str("Request failed (500)")
      && UploadFailureMessage(r) == Str("Upload failed.")
  {
    var r := HttpResponse(500, "application/json", "null", Some(Null));
    assert DeclaresJson(r) by {
      assert r.contentType[..|"application/json"|] == "application/json";
    }
    assert NatToString(500) == "500" by {
      assert NatToString(50) == "50";
    }
  }
}

=== FILE: file_validator.dfy ===
/** The local gate a chosen file must pass before it can be uploaded: it must
    look like a PDF and must not exceed the size ceiling. */
module FileValidator {
  import opened JsStrings

  /** The configured ceiling, in megabytes. */
  const MaxUploadMb: nat := 20

  /** One megabyte, as the client counts it: 1024 * 1024 bytes. */
  const BytesPerMb: nat := 1048576

  const PdfMimeType: string := "application/pdf"

  /** A file the browser hands over: its name, its declared MIME type (the
      empty string when the browser does not know it) and its size in bytes. */
  datatype File = File(name: string, mimeType: string, size: nat)

  datatype Verdict = Accepted | NotPdf | TooLarge

  /** The last four characters of `name` are a dot followed by p, d, f in
      either case. */
  predicate PdfNameSuffix(name: string) {
    && |name| >= 4
    && name[|name| - 4] == '.'
    && name[|name| - 3] in "pP"
    && name[|name| - 2] in "dD"
    && name[|name| - 1] in "fF"
  }

  /** The declared MIME type is exactly `application/pdf`, or the
      lower-cased name ends in `.pdf`; either suffices. */
  predicate IsPdf(f: File): (r: bool)
    ensures r <==> f.mimeType == PdfMimeType || PdfNameSuffix(f.name)
  {
    PdfSuffixIgnoresCase(f.name);
    f.mimeType == PdfMimeType || EndsWith(Lower(f.name), ".pdf")
  }

  /** `file.size / (1024 * 1024)`: the size in megabytes, as a fraction. */
  function SizeMb(size: nat): real {
    size as real / BytesPerMb as real
  }

  /** The two checks in program order: the type first, then the size. The
      size check compares a fractional megabyte count with the ceiling;
      the contract restates it over whole bytes. */
  function Validate(f: File, maxMb: nat): (v: Verdict)
    ensures v == Accepted <==> IsPdf(f) && f.size <= maxMb * BytesPerMb
    ensures v == NotPdf <==> !IsPdf(f)
    ensures v == TooLarge <==> IsPdf(f) && f.size > maxMb * BytesPerMb
  {
    MegabytesExceed(f.size, maxMb);
    if !IsPdf(f) then NotPdf
    else if SizeMb(f.size) > maxMb as real then TooLarge
    else Accepted
  }

  /** Dividing by the megabyte and comparing is the same as comparing bytes
      with the ceiling multiplied out. */
  lemma MegabytesExceed(size: nat, maxMb: nat)
    ensures SizeMb(size) > maxMb as real <==> size > maxMb * BytesPerMb
  {
    var b := BytesPerMb as real;
    assert SizeMb(size) * b == size as real;
    assert (maxMb * BytesPerMb) as real == maxMb as real * b;
    if SizeMb(size) > maxMb as real {
      assert SizeMb(size) * b > maxMb as real * b;
    } else {
      assert SizeMb(size) * b <= maxMb as real * b;
    }
  }

  /** The name test is case-insensitive: it holds exactly when the last four
      characters are a dot followed by p, d, f in either case. */
  lemma PdfSuffixIgnoresCase(name: string)
    ensures EndsWith(Lower(name), ".pdf") <==> PdfNameSuffix(name)
  {
    var l := Lower(name);
    if |name| >= 4 {
      var n := |name|;
      assert l[n - 4..] == [l[n - 4], l[n - 3], l[n - 2], l[n - 1]];
    }
  }

  /** The ceiling is inclusive: a PDF of exactly the ceiling is accepted and
      one byte more is rejected as too large. */
  lemma CeilingIsInclusive(name: string, mimeType: string, maxMb: nat)
    requires IsPdf(File(name, mimeType, 0))
    ensures Validate(File(name, mimeType, maxMb * BytesPerMb), maxMb) == Accepted
    ensures Validate(File(name, mimeType, maxMb * BytesPerMb + 1), maxMb) == TooLarge
  {
  }

  /** A 25 MB file named `report.pdf` with no declared type is rejected under
      the 20 MB ceiling; the same file at 5 MB is accepted. */
  lemma ScenarioLargePdfRejected()
    ensures Validate(File("report.pdf", "", 25 * BytesPerMb), MaxUploadMb) == TooLarge
    ensures Validate(File("report.pdf", "", 5 * BytesPerMb), MaxUploadMb) == Accepted
    ensures Validate(File("REPORT.PDF", "", 5 * BytesPerMb), MaxUploadMb) == Accepted
    ensures Validate(File("report.txt", "text/plain", 1), MaxUploadMb) == NotPdf
  {
    PdfSuffixIgnoresCase("report.pdf");
    PdfSuffixIgnoresCase("REPORT.PDF");
    PdfSuffixIgnoresCase("report.txt");
  }
}

=== FILE: js_strings.dfy ===
/** The string operations of JavaScript that the client uses:
    `toLowerCase`, `endsWith`, `includes`, `trim`, and the decimal rendering
    of a non-negative integer. */
module JsStrings {

  /** An ASCII upper-case letter. */
  predicate IsUpper(c: char) {
    'A' <= c <= 'Z'
  }

  /** Lower-cases one character (ASCII letters only). */
  function LowerChar(c: char): (r: char)
    ensures !IsUpper(r)
    ensures IsUpper(c) ==> r as int == c as int + 32
    ensures !IsUpper(c) ==> r == c
  {
    if IsUpper(c) then (c as int + 32) as char else c
  }

  /** True when no character of `s` is an upper-case letter. */
  predicate IsLowerCase(s: string) {
    forall i :: 0 <= i < |s| ==> !IsUpper(s[i])
  }

  /** `s.toLowerCase()`, restricted to ASCII letters. */
  function Lower(s: string): (r: string)
    ensures |r| == |s|
    ensures IsLowerCase(r)
    ensures forall i :: 0 <= i < |s| ==> r[i] == LowerChar(s[i])
  {
    seq(|s|, i requires 0 <= i < |s| => LowerChar(s[i]))
  }

  /** Lower-casing a lower-case string changes nothing; in particular
      lower-casing is idempotent. */
  lemma LowerOfLowerCase(s: string)
    requires IsLowerCase(s)
    ensures Lower(s) == s
  {
  }

  /** `s.endsWith(suffix)`. */
  predicate EndsWith(s: string, suffix: string) {
    |suffix| <= |s| && s[|s| - |suffix|..] == suffix
  }

  /** `sub` occurs in `s` starting at offset `k`. */
  predicate OccursAt(s: string, sub: string, k: int) {
    0 <= k && k + |sub| <= |s| && s[k..k + |sub|] == sub
  }

  /** `s.includes(sub)`: `sub` occurs somewhere in `s`; in particular a
      string includes each of its suffixes. */
  predicate Contains(s: string, sub: string): (r: bool)
    ensures r ==> |sub| <= |s|
    ensures EndsWith(s, sub) ==> r
    decreases |s|
  {
    if |s| < |sub| then false
    else s[..|sub|] == sub || Contains(s[1..], sub)
  }

  /** Contains finds exactly the occurrences at some offset. */
  lemma {:induction false} ContainsIffOccurs(s: string, sub: string)
    ensures Contains(s, sub) <==> exists k :: OccursAt(s, sub, k)
    decreases |s|
  {
    if |s| < |sub| {
    } else if s[..|sub|] == sub {
      assert OccursAt(s, sub, 0);
    } else {
      ContainsIffOccurs(s[1..], sub);
      if Contains(s[1..], sub) {
        var k :| OccursAt(s[1..], sub, k);
        assert s[k + 1..k + 1 + |sub|] == s[1..][k..k + |sub|];
        assert OccursAt(s, sub, k + 1);
      }
      if exists k :: OccursAt(s, sub, k) {
        var k :| OccursAt(s, sub, k);
        assert k != 0;
        assert s[1..][k - 1..k - 1 + |sub|] == s[k..k + |sub|];
        assert OccursAt(s[1..], sub, k - 1);
      }
    }
  }

  /** The characters `String.prototype.trim` removes: the WhiteSpace and
      LineTerminator code points of section 12.2 and 12.3 of ECMA-262
      (every space separator of category Zs is listed). */
  predicate IsJsWhitespace(c: char) {
    || c == '\t' || c == '\n' || c == '\U{000B}' || c == '\U{000C}' || c == '\r'
    || c == ' ' || c == '\U{00A0}' || c == '\U{1680}'
    || ('\U{2000}' <= c <= '\U{200A}')
    || c == '\U{2028}' || c == '\U{2029}' || c == '\U{202F}' || c == '\U{205F}'
    || c == '\U{3000}' || c == '\U{FEFF}'
  }

  predicate AllWhitespace(s: string) {
    forall i :: 0 <= i < |s| ==> IsJsWhitespace(s[i])
  }

  /** Drops leading whitespace. */
  function TrimStart(s: string): (r: string)
    ensures |r| <= |s| && r == s[|s| - |r|..]
    ensures AllWhitespace(s[..|s| - |r|])
    ensures r == [] || !IsJsWhitespace(r[0])
    decreases |s|
  {
    if |s| > 0 && IsJsWhitespace(s[0]) then TrimStart(s[1..]) else s
  }

  /** Drops trailing whitespace. */
  function TrimEnd(s: string): (r: string)
    ensures |r| <= |s| && r == s[..|r|]
    ensures AllWhitespace(s[|r|..])
    ensures r == [] || !IsJsWhitespace(r[|r| - 1])
    decreases |s|
  {
    if |s| > 0 && IsJsWhitespace(s[|s| - 1]) then TrimEnd(s[..|s| - 1]) else s
  }

  /** A string that is all whitespace trims to nothing from the front, and
      only such a string does. */
  lemma {:induction false} TrimStartEmpty(s: string)
    ensures TrimStart(s) == [] <==> AllWhitespace(s)
    decreases |s|
  {
    if |s| > 0 && IsJsWhitespace(s[0]) {
      TrimStartEmpty(s[1..]);
      assert AllWhitespace(s) <==> AllWhitespace(s[1..]) by {
        assert forall i :: 1 <= i < |s| ==> s[i] == s[1..][i - 1];
      }
    }
  }

  /** The same from the back. */
  lemma {:induction false} TrimEndEmpty(s: string)
    ensures TrimEnd(s) == [] <==> AllWhitespace(s)
    decreases |s|
  {
    if |s| > 0 && IsJsWhitespace(s[|s| - 1]) {
      TrimEndEmpty(s[..|s| - 1]);
      assert AllWhitespace(s) <==> AllWhitespace(s[..|s| - 1]) by {
        assert forall i :: 0 <= i < |s| - 1 ==> s[i] == s[..|s| - 1][i];
      }
    }
  }

  /** `r` is the infix of `s` that starts at offset `i`. */
  predicate InfixAt(s: string, r: string, i: int) {
    0 <= i && i + |r| <= |s| && r == s[i..i + |r|]
  }

  /** `s.trim()`: the infix of `s` left once the whitespace at both ends is
      removed. */
  function Trim(s: string): (r: string)
    ensures |r| <= |s|
    ensures r == [] <==> AllWhitespace(s)
    ensures r != [] ==> !IsJsWhitespace(r[0]) && !IsJsWhitespace(r[|r| - 1])
    ensures InfixAt(s, r, |s| - |TrimStart(s)|)
  {
    var t := TrimStart(s);
    var r := TrimEnd(t);
    TrimEndOfTrimStart(s, t, r);
    r
  }

  lemma {:induction false} TrimEndOfTrimStart(s: string, t: string, r: string)
    requires t == TrimStart(s) && r == TrimEnd(t)
    ensures |r| <= |s|
    ensures r == [] <==> AllWhitespace(s)
    ensures r != [] ==> !IsJsWhitespace(r[0]) && !IsJsWhitespace(r[|r| - 1])
    ensures InfixAt(s, r, |s| - |t|)
  {
    TrimEmptyIffAllWhitespace(s, t, r);
    TrimFirstChar(t, r);
    TrimInfix(s, t, r);
  }

  lemma {:induction false} TrimEmptyIffAllWhitespace(s: string, t: string, r: string)
    requires t == TrimStart(s) && r == TrimEnd(t)
    ensures r == [] <==> AllWhitespace(s)
  {
    TrimStartEmpty(s);
    TrimEndEmpty(t);
    if t != [] {
      assert !AllWhitespace(t) by { assert !IsJsWhitespace(t[0]); }
    }
  }

  lemma {:induction false} TrimFirstChar(t: string, r: string)
    requires r == TrimEnd(t) && (t == [] || !IsJsWhitespace(t[0]))
    ensures r != [] ==> !IsJsWhitespace(r[0])
  {
    if r != [] {
      assert r[0] == t[0];
    }
  }

  lemma {:induction false} TrimInfix(s: string, t: string, r: string)
    requires |t| <= |s| && t == s[|s| - |t|..]
    requires |r| <= |t| && r == t[..|r|]
    ensures InfixAt(s, r, |s| - |t|)
  {
    var off := |s| - |t|;
    assert s[off..off + |r|] == s[off..][..|r|];
  }

  /** A string with no whitespace at either end is already trimmed. */
  lemma {:induction false} TrimUnpadded(s: string)
    requires s != [] && !IsJsWhitespace(s[0]) && !IsJsWhitespace(s[|s| - 1])
    ensures Trim(s) == s
  {
    assert TrimStart(s) == s;
    assert TrimEnd(s) == s;
  }

  /** Trimming is idempotent. */
  lemma {:induction false} TrimIdempotent(s: string)
    ensures Trim(Trim(s)) == Trim(s)
  {
    var r := Trim(s);
    if r != [] {
      assert TrimStart(r) == r;
      assert TrimEnd(r) == r;
    }
  }

  /** The decimal digit for `d`. */
  function DigitChar(d: nat): (c: char)
    requires d < 10
    ensures c as int == '0' as int + d
  {
    "0123456789"[d]
  }

  predicate IsDigits(s: string) {
    forall i :: 0 <= i < |s| ==> '0' <= s[i] <= '9'
  }

  /** The number a string of decimal digits denotes. */
  function DigitsValue(s: string): nat
    requires IsDigits(s)
  {
    if s == [] then 0 else DigitsValue(s[..|s| - 1]) * 10 + (s[|s| - 1] as int - '0' as int)
  }

  /** `String(n)` for a non-negative integer: its decimal digits, with no
      leading zero. */
  function NatToString(n: nat): (r: string)
    ensures |r| > 0 && IsDigits(r)
    ensures |r| > 1 ==> r[0] != '0'
  {
    if n < 10 then [DigitChar(n)] else NatToString(n / 10) + [DigitChar(n % 10)]
  }

  /** The digits written for `n` denote `n`. */
  lemma {:induction false} NatToStringDenotes(n: nat)
    ensures DigitsValue(NatToString(n)) == n
    decreases n
  {
    var r := NatToString(n);
    if n >= 10 {
      NatToStringDenotes(n / 10);
      assert r[..|r| - 1] == NatToString(n / 10);
    }
  }

  /** Different numbers are written differently, so array indices never
      share a property name. */
  lemma NatToStringInjective(i: nat, j: nat)
    requires NatToString(i) == NatToString(j)
    ensures i == j
  {
    NatToStringDenotes(i);
    NatToStringDenotes(j);
  }
}

=== FILE: js_values.dfy ===
/** The JavaScript values the client reads from server responses, with the
    operators it applies to them: truthiness, `||`, `??`, property access
    (`v.k` and `v?.k`) and object spread (`{ ...a, ...b }`).
    Numbers are integers; `Undefined` never occurs in parsed JSON and stands
    for a missing property. */
module JsValues {
  import opened Wrappers
  import opened JsStrings

  datatype Value =
    | Undefined
    | Null
    | Bool(b: bool)
    | Num(n: int)
    | Str(s: string)
    | Arr(items: seq<Value>)
    | Obj(fields: map<string, Value>)

  /** The falsy values of JavaScript, as listed in section 7.1.2 of
      ECMA-262 (`NaN`, `-0` and `0n` do not arise here). */
  const FalsyValues: set<Value> := {Undefined, Null, Bool(false), Num(0), Str("")}

  /** JavaScript truthiness: everything but the falsy values, every array
      and object included, is truthy. */
  predicate Truthy(v: Value): (r: bool)
    ensures r <==> v !in FalsyValues
  {
    match v
    case Undefined => false
    case Null => false
    case Bool(b) => b
    case Num(n) => n != 0
    case Str(s) => s != ""
    case Arr(_) => true
    case Obj(_) => true
  }

  predicate IsNullish(v: Value) {
    v.Undefined? || v.Null?
  }

  /** `a || b`. */
  function Or(a: Value, b: Value): (r: Value)
    ensures Truthy(a) ==> r == a
    ensures !Truthy(a) ==> r == b
  {
    if Truthy(a) then a else b
  }

  /** `a ?? b`: only `null` and `undefined` fall back; `0`, `""` and `false`
      are kept. */
  function Coalesce(a: Value, b: Value): (r: Value)
    ensures !IsNullish(a) ==> r == a
    ensures IsNullish(a) ==> r == b
  {
    if IsNullish(a) then b else a
  }

  /** A left-to-right chain `vs[0] || vs[1] || ... || vs[n-1]`. */
  function OrChain(vs: seq<Value>): Value
    requires |vs| > 0
  {
    if |vs| == 1 then vs[0] else Or(vs[0], OrChain(vs[1..]))
  }

  /** `k` is the position of the first truthy element of `vs`. */
  predicate FirstTruthyAt(vs: seq<Value>, k: int) {
    0 <= k < |vs| && Truthy(vs[k]) && forall j :: 0 <= j < k ==> !Truthy(vs[j])
  }

  /** An `||` chain yields its first truthy operand, and its last operand
      when none is truthy. */
  lemma {:induction false} OrChainPicksFirstTruthy(vs: seq<Value>)
    requires |vs| > 0
    ensures forall k :: FirstTruthyAt(vs, k) ==> OrChain(vs) == vs[k]
    ensures (forall j :: 0 <= j < |vs| ==> !Truthy(vs[j])) ==> OrChain(vs) == vs[|vs| - 1]
    decreases |vs|
  {
    if |vs| > 1 {
      OrChainPicksFirstTruthy(vs[1..]);
      forall k | FirstTruthyAt(vs, k)
        ensures OrChain(vs) == vs[k]
      {
        if k > 0 {
          assert FirstTruthyAt(vs[1..], k - 1) by {
            forall j | 0 <= j < k - 1 ensures !Truthy(vs[1..][j]) {
              assert vs[1..][j] == vs[j + 1];
            }
          }
        }
      }
      if forall j :: 0 <= j < |vs| ==> !Truthy(vs[j]) {
        assert forall j :: 0 <= j < |vs| - 1 ==> !Truthy(vs[1..][j]) by {
          forall j | 0 <= j < |vs| - 1 ensures !Truthy(vs[1..][j]) {
            assert vs[1..][j] == vs[j + 1];
          }
        }
      }
    }
  }

  /** The index properties `"0"`, `"1"`, ... of an array-like value: each
      element under its decimal index, and no other key. */
  function IndexedEntries(xs: seq<Value>): (m: map<string, Value>)
    ensures forall i :: 0 <= i < |xs| ==> NatToString(i) in m && m[NatToString(i)] == xs[i]
    ensures forall k :: k in m ==> exists i :: 0 <= i < |xs| && k == NatToString(i)
    decreases |xs|
  {
    if |xs| == 0 then map[]
    else
      var last := |xs| - 1;
      var m := IndexedEntries(xs[..last]);
      var r := m[NatToString(last) := xs[last]];
      assert forall i :: 0 <= i < |xs| ==> NatToString(i) in r && r[NatToString(i)] == xs[i] by {
        forall i | 0 <= i < |xs| ensures NatToString(i) in r && r[NatToString(i)] == xs[i] {
          if i < last {
            assert xs[..last][i] == xs[i];
            if NatToString(i) == NatToString(last) {
              NatToStringInjective(i, last);
            }
          }
        }
      }
      assert forall k :: k in r ==> exists i :: 0 <= i < |xs| && k == NatToString(i) by {
        forall k | k in r ensures exists i :: 0 <= i < |xs| && k == NatToString(i) {
          if k != NatToString(last) {
            var i :| 0 <= i < last && k == NatToString(i);
            assert 0 <= i < |xs| && k == NatToString(i);
          }
        }
      }
      r
  }

  /** Every key of an array-like value is a string of digits. A step of
      the proof of `OwnProperties`, not a property of the client. */
  lemma IndexKeysAreDigits(xs: seq<Value>)
    ensures forall k :: k in IndexedEntries(xs) ==> IsDigits(k)
  {
  }

  /** The own enumerable properties `{ ...v }` copies: an object's fields, the
      characters of a string and the elements of an array under their index,
      and nothing for the other primitives. */
  function OwnProperties(v: Value): (m: map<string, Value>)
    ensures v.Obj? ==> m == v.fields
    ensures v.Arr? ==> forall i :: 0 <= i < |v.items| ==> NatToString(i) in m && m[NatToString(i)] == v.items[i]
    ensures v.Str? ==> forall i :: 0 <= i < |v.s| ==> NatToString(i) in m && m[NatToString(i)] == Str([v.s[i]])
    ensures !v.Obj? ==> forall k :: k in m ==> IsDigits(k)
    ensures !(v.Obj? || v.Arr? || v.Str?) ==> m == map[]
  {
    match v
    case Obj(fields) => fields
    case Str(s) =>
      var chars := seq(|s|, i requires 0 <= i < |s| => Str([s[i]]));
      IndexKeysAreDigits(chars);
      IndexedEntries(chars)
    case Arr(items) =>
      IndexKeysAreDigits(items);
      IndexedEntries(items)
    case _ => map[]
  }

  /** A property name that is not an array index. */
  predicate IsNamedKey(k: string) {
    !IsDigits(k)
  }

  /** `v.k`: `None` when `v` is `null` or `undefined` (a TypeError),
      otherwise the own property or `undefined`. Every key the client reads
      is a named key that no JSON value inherits from its prototype. */
  function Get(v: Value, k: string): (r: Option<Value>)
    ensures r.None? <==> IsNullish(v)
    ensures v.Obj? ==> r == Some(if k in v.fields then v.fields[k] else Undefined)
    ensures !v.Obj? && IsNamedKey(k) && !IsNullish(v) ==> r == Some(Undefined)
  {
    if IsNullish(v) then None
    else
      var props := OwnProperties(v);
      Some(if k in props then props[k] else Undefined)
  }

  /** `v?.k`: like `v.k`, but `undefined` when `v` is `null` or `undefined`. */
  function GetOpt(v: Value, k: string): (r: Value)
    ensures IsNullish(v) ==> r == Undefined
    ensures !IsNullish(v) ==> Get(v, k) == Some(r)
  {
    match Get(v, k)
    case None => Undefined
    case Some(x) => x
  }

  /** `{ ...a, ...b }`: an object holding every own property of `b`, and
      those of `a` that `b` does not overwrite. */
  function Merge(a: Value, b: Value): (r: Value)
    ensures r.Obj?
    ensures r.fields.Keys == OwnProperties(a).Keys + OwnProperties(b).Keys
    ensures forall k :: k in OwnProperties(b) ==> r.fields[k] == OwnProperties(b)[k]
    ensures forall k :: k in OwnProperties(a) && k !in OwnProperties(b) ==> r.fields[k] == OwnProperties(a)[k]
  {
    Obj(OwnProperties(a) + OwnProperties(b))
  }

  /** Merging into `null` (nothing to spread) yields just the new properties. */
  lemma MergeIntoNull(b: Value)
    ensures Merge(Null, b) == Obj(OwnProperties(b))
  {
    assert OwnProperties(Null) == map[];
  }
}

=== FILE: scenarios.dfy ===
/** End-to-end runs of the page, event by event, from page load. Each step
    is first stated for any reply of its shape, then instantiated. */
module Scenarios {
  import opened Wrappers
  import opened JsStrings
  import opened JsValues
  import opened FileValidator
  import opened StatusVocabulary
  import opened ApiGateway
  import opened AnalysisResults
  import opened UploadMeta
  import opened Session
  import opened Workflow

  const Json: string := "application/json"

  /** A JSON reply with the given status and parsed body. */
  function JsonReply(status: nat, body: Value): Exchange {
    Exchange(Responded(HttpResponse(status, Json, "", Some(body))), None)
  }

  /** A JSON 200 resolves to its body. */
  lemma JsonReplyOutcome(body: Value)
    ensures ReplyOutcome(JsonReply(200, body).reply) == Ok(JsonBody(body))
  {
    assert Json[..|Json|] == Json;
  }

  // ---------------------------------------------------------------------
  // Upload

  /** An accepted upload whose response carries a truthy `upload_id`, a
      string status and no `filename` shows the local name and arms the
      poll. */
  lemma UploadWithoutServerName(s: Session, file: File, response: map<string, Value>) returns (r: Session)
    requires s.selectedFile == Some(file) && s.uploadEnabled && file.name != ""
    requires HeaderSafe(s.token)
    requires "filename" !in response
    requires "upload_id" in response && Truthy(response["upload_id"])
    requires "status" in response && response["status"].Str?
    ensures r == Step(s, ClickUpload(XhrLoaded(HttpResponse(200, Json, "", Some(Obj(response)))), None))
    ensures r.uploadPolling && !r.uploadEnabled && !r.analyzeEnabled && r.deleteEnabled
    ensures r.currentUpload == Obj(response)
    ensures r.meta.filename == Str(file.name)
  {
    r := ClickUploadStep(s, XhrLoaded(HttpResponse(200, Json, "", Some(Obj(response)))), None);
    var rec := UploadDisplayRecord(Obj(response), file);
    assert GetOpt(Obj(response), "filename") == Undefined;
    assert GetOpt(rec.value, "filename") == Str(file.name);
    assert GetOpt(rec.value, "status") == response["status"];
    StringStatusNeverThrows(s.meta, rec.value);
  }

  /** A status reply that keeps the poll going and carries no `filename`,
      merged into a record without one, leaves the panel showing "—". */
  lemma PollWithoutServerName(s: Session, fields: map<string, Value>) returns (r: Session)
    requires s.uploadPolling && s.currentUpload.Obj? && "filename" !in s.currentUpload.fields
    requires "filename" !in fields && "status" in fields && fields["status"].Str?
    requires !UploadStopsOn(fields["status"])
    ensures r == Step(s, UploadTimer(JsonReply(200, Obj(fields))))
    ensures r.uploadPolling && r.analyzeEnabled == s.analyzeEnabled
    ensures r.currentUpload == Obj(s.currentUpload.fields + fields)
    ensures r.meta.filename == Str("—")
  {
    r := UploadTimerStep(s, JsonReply(200, Obj(fields)));
    JsonReplyOutcome(Obj(fields));
    var merged := Merge(s.currentUpload, Obj(fields));
    assert merged == Obj(s.currentUpload.fields + fields);
    assert GetOpt(merged, "filename") == Undefined;
  }

  /** `ready_for_analysis` with a page count ends the poll, enables
      analysis and shows the count and the ready badge. */
  lemma PollReadyForAnalysis(s: Session, fields: map<string, Value>) returns (r: Session)
    requires s.uploadPolling
    requires "status" in fields && fields["status"] == Str("ready_for_analysis")
    requires "pages" in fields && fields["pages"].Num?
    ensures r == Step(s, UploadTimer(JsonReply(200, Obj(fields))))
    ensures !r.uploadPolling && r.analyzeEnabled
    ensures r.meta.pages == Some(fields["pages"])
    ensures r.meta.badge == Some(BadgeFor("ready"))
  {
    r := UploadTimerStep(s, JsonReply(200, Obj(fields)));
    JsonReplyOutcome(Obj(fields));
    var merged := Merge(s.currentUpload, Obj(fields));
    assert GetOpt(merged, "pages") == fields["pages"];
  }

  const Report: File := File("report.pdf", PdfMimeType, 5 * BytesPerMb)
  const FirstReply: map<string, Value> := map["upload_id" := Str("u1"), "status" := Str("uploaded")]
  const Extracting: map<string, Value> := map["status" := Str("extracting")]
  const Ready: map<string, Value> := map["status" := Str("ready_for_analysis"), "pages" := Num(12)]

  /** The facts about the replies of the upload run that its steps need. */
  lemma UploadRunReplies()
    ensures Report.name == "report.pdf"
    ensures "filename" !in FirstReply && "upload_id" in FirstReply && FirstReply["upload_id"] == Str("u1")
    ensures "status" in FirstReply && FirstReply["status"] == Str("uploaded")
    ensures "filename" !in Extracting && "status" in Extracting && Extracting["status"] == Str("extracting")
    ensures !UploadStopsOn(Extracting["status"])
    ensures "status" in Ready && Ready["status"] == Str("ready_for_analysis")
    ensures "pages" in Ready && Ready["pages"] == Num(12)
  {
  }

  lemma ChooseReport(s: Session) returns (r: Session)
    ensures r == Step(s, ChooseFile(Some(Report)))
    ensures r == s.(selectedFile := Some(Report), uploadEnabled := true)
  {
    assert Validate(Report, MaxUploadMb) == Accepted;
    r := s.(selectedFile := Some(Report), uploadEnabled := true);
  }

  /** A 5 MB PDF is chosen and uploaded; the server answers with an id and
      no file name, so the panel shows the local name. The first status
      poll reports `extracting`: the poll keeps running, and the panel,
      now drawn from the merged record that has no `filename`, shows "—".
      The second reports `ready_for_analysis` with 12 pages: polling stops,
      the badge reads as `ready` and the analyze button is enabled. */
  lemma ScenarioUploadThenReady()
    ensures var s1 := Step(Initial(), ChooseFile(Some(Report)));
      var s2 := Step(s1, ClickUpload(XhrLoaded(HttpResponse(200, Json, "", Some(Obj(FirstReply)))), None));
      var s3 := Step(s2, UploadTimer(JsonReply(200, Obj(Extracting))));
      var s4 := Step(s3, UploadTimer(JsonReply(200, Obj(Ready))));
      && s2.uploadPolling && s2.meta.filename == Str("report.pdf")
      && s3.uploadPolling && !s3.analyzeEnabled && s3.meta.filename == Str("—")
      && !s4.uploadPolling && s4.analyzeEnabled
      && s4.meta.pages == Some(Num(12)) && s4.meta.badge == Some(BadgeFor("ready"))
  {
    UploadRunReplies();
    var s1 := ChooseReport(Initial());
    var s2 := UploadWithoutServerName(s1, Report, FirstReply);
    var s3 := PollWithoutServerName(s2, Extracting);
    var s4 := PollReadyForAnalysis(s3, Ready);
  }

  // ---------------------------------------------------------------------
  // Analysis

  /** A reply carrying a truthy `analysis_id` stores it and arms the poll. */
  lemma StartAnalysis(s: Session, fields: map<string, Value>)
    requires s.analyzeEnabled && Truthy(GetOpt(s.currentUpload, "upload_id"))
    requires "analysis_id" in fields && Truthy(fields["analysis_id"])
    ensures var r := Step(s, ClickAnalyze(JsonReply(200, Obj(fields))));
      && r.analysisPolling && !r.analyzeEnabled
      && r.currentAnalysisId == fields["analysis_id"] && r.latestAnalysisResult == Null
  {
    JsonReplyOutcome(Obj(fields));
  }

  /** A status other than `done` and `error` keeps polling, fetches
      nothing and shows its badge. */
  lemma PollInProgress(s: Session, status: string, resultEx: Exchange)
    requires s.analysisPolling && status != "" && !AnalysisStopsOn(Str(status))
    ensures var r := Step(s, AnalysisTimer(JsonReply(200, Obj(map["status" := Str(status)])), resultEx));
      && r.analysisPolling
      && r.currentAnalysisId == s.currentAnalysisId
      && r.latestAnalysisResult == s.latestAnalysisResult
      && r.meta.badge == Some(BadgeFor(status))
  {
    JsonReplyOutcome(Obj(map["status" := Str(status)]));
  }

  /** A `done` tick whose result lays out without throwing leaves the
      result stored, the badge done and the button enabled. */
  lemma PollDone(s: Session, result: Value)
    requires s.analysisPolling && Truthy(s.currentAnalysisId)
    requires !Threw(RenderResults(result))
    ensures var r := Step(s, AnalysisTimer(JsonReply(200, Obj(map["status" := Str("done")])), JsonReply(200, result)));
      && !r.analysisPolling && r.analyzeEnabled
      && r.latestAnalysisResult == result
      && r.meta.badge == Some(BadgeFor("done"))
  {
    var done := JsonReply(200, Obj(map["status" := Str("done")]));
    JsonReplyOutcome(Obj(map["status" := Str("done")]));
    JsonReplyOutcome(result);
    var t := AnalysisPoll(s, done);
    assert t.fetchResult;
    var r := AnalysisTimerStep(s, done, JsonReply(200, result));
  }

  const SignatureIssue: Value := Obj(map["title" := Str("Missing signature block"), "severity" := Str("High"), "page_range" := Str("3-4")])
  const Result: Value := Obj(map["document_summary" := Str("Summary"), "issues" := Arr([SignatureIssue])])

  lemma ResultRenders()
    ensures !Threw(RenderResults(Result))
  {
    ScenarioSingleHighIssue();
  }

  /** The analysis run after the upload: started, `running`, then `done`
      with one high-severity issue. */
  lemma ScenarioAnalysis(s: Session)
    requires s.analyzeEnabled && Truthy(GetOpt(s.currentUpload, "upload_id"))
    ensures var s1 := Step(s, ClickAnalyze(JsonReply(200, Obj(map["analysis_id" := Str("a1"), "status" := Str("queued")]))));
      var s2 := Step(s1, AnalysisTimer(JsonReply(200, Obj(map["status" := Str("running")])), JsonReply(200, Result)));
      var s3 := Step(s2, AnalysisTimer(JsonReply(200, Obj(map["status" := Str("done")])), JsonReply(200, Result)));
      && s1.analysisPolling && s1.currentAnalysisId == Str("a1")
      && s2.analysisPolling && s2.latestAnalysisResult == Null
      && !s3.analysisPolling && s3.analyzeEnabled && s3.latestAnalysisResult == Result
  {
    var started := map["analysis_id" := Str("a1"), "status" := Str("queued")];
    var s1 := Step(s, ClickAnalyze(JsonReply(200, Obj(started))));
    StartAnalysis(s, started);
    var s2 := Step(s1, AnalysisTimer(JsonReply(200, Obj(map["status" := Str("running")])), JsonReply(200, Result)));
    PollInProgress(s1, "running", JsonReply(200, Result));
    ResultRenders();
    PollDone(s2, Result);
  }

  // ---------------------------------------------------------------------
  // Credentials

  /** A 401 on the analyze request runs the hook once, takes the trimmed
      answer as the token, does not retry and enables the button again. */
  lemma AnalyzeUnauthorized(s: Session, input: string)
    requires s.analyzeEnabled && Truthy(GetOpt(s.currentUpload, "upload_id"))
    requires Trim(input) != ""
    ensures var ex := Exchange(Responded(HttpResponse(401, Json, "", None)), Some(input));
      var r := Step(s, ClickAnalyze(ex));
      && ApiFetch(s.token, ex).hookRuns == 1
      && r.token == Trim(input)
      && r.analyzeEnabled && !r.analysisPolling
  {
    var ex := Exchange(Responded(HttpResponse(401, Json, "", None)), Some(input));
    var r := ClickAnalyzeStep(s, ex);
    BeginAnalysisUnauthorized(s, ex);
  }

  /** A 401 on the analyze request updates the token (through the hook),
      forgets the previous result, disarms the analysis poll and enables the
      button again; nothing else changes, the analysis id and the panel
      included. */
  lemma BeginAnalysisUnauthorized(s: Session, ex: Exchange)
    requires Truthy(GetOpt(s.currentUpload, "upload_id"))
    requires ex.reply.Responded? && ex.reply.response.status == 401
    ensures BeginAnalysis(s, ex) == s.(token := HandleUnauthorized(s.token, ex.promptInput),
      latestAnalysisResult := Null, analysisPolling := false, analyzeEnabled := true)
  {
  }

  lemma TrimNewToken()
    ensures Trim(" new-token ") == "new-token"
  {
    assert TrimStart("new-token ") == "new-token ";
    assert TrimStart(" new-token ") == "new-token ";
    assert TrimEnd("new-token") == "new-token";
    assert "new-token "[..|"new-token "| - 1] == "new-token";
    assert TrimEnd("new-token ") == "new-token";
  }

  /** With " new-token " typed at the prompt, the token becomes `new-token`. */
  lemma ScenarioUnauthorized(s: Session)
    requires s.analyzeEnabled && Truthy(GetOpt(s.currentUpload, "upload_id"))
    ensures var ex := Exchange(Responded(HttpResponse(401, Json, "", None)), Some(" new-token "));
      var r := Step(s, ClickAnalyze(ex));
      && ApiFetch(s.token, ex).hookRuns == 1
      && r.token == "new-token"
      && r.analyzeEnabled && !r.analysisPolling
  {
    TrimNewToken();
    AnalyzeUnauthorized(s, " new-token ");
  }
}

=== FILE: session.dfy ===
/** The client's session state and the transitions that change it: choosing
    a file, uploading it, one tick of the upload status poll, starting an
    analysis, one tick of the analysis status poll, fetching the result,
    downloading the original PDF, and deleting the upload (which resets
    everything).
    Each user action is modelled together with the reply it awaits; the
    network replies and the token prompt are inputs. Timers are flags. */
module Session {
  import opened Wrappers
  import opened JsStrings
  import opened JsValues
  import opened FileValidator
  import opened StatusVocabulary
  import opened ApiGateway
  import opened AnalysisResults
  import opened UploadMeta

  const InitialToken: string := "dev-token"

  /** The module-level state of the client. `Null` stands for a variable
      holding `null`; the upload record and ids are whatever the server sent.
      The two `...Polling` flags say whether an interval timer is armed; the
      three `...Enabled` flags are the upload, analyze and delete buttons.
      The PDF download button is disabled and enabled at exactly the same
      points as the delete button, so `deleteEnabled` stands for both. */
  datatype Session = Session(
    token: string,
    selectedFile: Option<File>,
    currentUpload: Value,
    currentAnalysisId: Value,
    latestAnalysisResult: Value,
    uploadPolling: bool,
    analysisPolling: bool,
    uploadEnabled: bool,
    analyzeEnabled: bool,
    deleteEnabled: bool,
    meta: MetaView)

  /** The state at page load: the configured token, nothing selected,
      uploaded or analysed, no timer armed, every button disabled and the
      panel hidden. */
  function Initial(): (r: Session)
    ensures r.token == InitialToken && r.selectedFile.None?
    ensures r.currentUpload == Null && r.currentAnalysisId == Null && r.latestAnalysisResult == Null
    ensures !r.uploadPolling && !r.analysisPolling
    ensures !r.uploadEnabled && !r.analyzeEnabled && !r.deleteEnabled
    ensures !r.meta.visible
    ensures HeaderSafe(r.token)
  {
    Session(InitialToken, None, Null, Null, Null, false, false, false, false, false, InitialMeta)
  }

  /** `validateAndSetFile`: an accepted file becomes the selection and enables
      the upload button; a rejected one clears the selection and disables
      it; no file changes nothing. */
  function ValidateAndSetFile(s: Session, file: Option<File>): (r: Session)
    ensures r == s.(selectedFile := r.selectedFile, uploadEnabled := r.uploadEnabled)
    ensures file.None? ==> r == s
    ensures file.Some? ==> (r.selectedFile.Some? <==> Validate(file.value, MaxUploadMb) == Accepted)
    ensures file.Some? ==> r.uploadEnabled == r.selectedFile.Some?
    ensures file.Some? && r.selectedFile.Some? ==> r.selectedFile == file
  {
    match file
    case None => s
    case Some(f) =>
      if Validate(f, MaxUploadMb) == Accepted then s.(selectedFile := Some(f), uploadEnabled := true)
      else s.(selectedFile := None, uploadEnabled := false)
  }

  /** A successful body as the JavaScript value the callers see: `null` for a
      204 and an object with no own properties for a binary payload. */
  function AsValue(body: ApiBody): (v: Value)
    ensures body.NoContent? ==> v == Null
    ensures body.JsonBody? ==> v == body.value
    ensures body.BlobBody? ==> v.Obj? && OwnProperties(v) == map[]
  {
    match body
    case NoContent => Null
    case JsonBody(v) => v
    case BlobBody => Obj(map[])
  }

  /** The session after a request (only the token can change, through the
      401 hook), and the request's outcome. */
  datatype Fetched = Fetched(session: Session, outcome: Result<ApiBody, ApiError>)

  function Fetch(s: Session, ex: Exchange): (f: Fetched)
    ensures f.session == s.(token := f.session.token)
    ensures f.session.token == ApiFetch(s.token, ex).token
    ensures f.outcome == ReplyOutcome(ex.reply)
  {
    var c := ApiFetch(s.token, ex);
    Fetched(s.(token := c.token), c.outcome)
  }

  // ---------------------------------------------------------------------
  // Upload

  /** What the upload request comes back with. */
  datatype XhrReply = XhrNetworkError | XhrLoaded(response: HttpResponse)

  /** The upload was taken: a 2xx reply whose body parses. */
  predicate UploadAccepted(reply: XhrReply) {
    reply.XhrLoaded? && IsOk(reply.response.status) && reply.response.json.Some?
  }

  /** `uploadSelectedFile` with the reply it awaits. Starting an upload
      disarms both timers, forgets the analysis and its result and disables
      all three buttons. A token the header cannot carry makes
      `setRequestHeader` throw right there: nothing is sent, no handler
      ever runs, and every button stays disabled. A failed upload re-enables the upload button and
      keeps the previous upload record. An accepted one stores the parsed
      response as the upload record and refreshes the panel from it; a
      `null` response or a refresh that throws is caught and re-enables the
      upload button, otherwise the delete button is enabled and, when the
      response carries a truthy `upload_id`, the upload poll is armed. */
  function UploadSelectedFile(s: Session, reply: XhrReply, promptInput: Option<string>): (r: Session)
    ensures s.selectedFile.None? ==> r == s
    ensures r.selectedFile == s.selectedFile
    ensures s.selectedFile.Some? ==>
      && !r.analysisPolling && !r.analyzeEnabled
      && r.currentAnalysisId == Null && r.latestAnalysisResult == Null
    ensures s.selectedFile.Some? && !HeaderSafe(s.token) ==>
      r == s.(uploadPolling := false, analysisPolling := false, currentAnalysisId := Null,
              latestAnalysisResult := Null, uploadEnabled := false, analyzeEnabled := false,
              deleteEnabled := false)
    ensures s.selectedFile.Some? && HeaderSafe(s.token) && !UploadAccepted(reply) ==>
      && r.uploadEnabled && !r.uploadPolling && !r.deleteEnabled
      && r.currentUpload == s.currentUpload && r.meta == s.meta
    ensures s.selectedFile.Some? && HeaderSafe(s.token) && UploadAccepted(reply) ==> r.currentUpload == reply.response.json.value
    ensures s.selectedFile.Some? && HeaderSafe(s.token) && UploadAccepted(reply) ==>
      var response := reply.response.json.value;
      var rec := UploadDisplayRecord(response, s.selectedFile.value);
      && (rec.None? ==> r.uploadEnabled && !r.uploadPolling && !r.deleteEnabled && r.meta == s.meta)
      && (rec.Some? ==> r.meta == UpdateUploadMeta(s.meta, rec.value).view)
      && (rec.Some? && UpdateUploadMeta(s.meta, rec.value).threw ==>
            r.uploadEnabled && !r.uploadPolling && !r.deleteEnabled)
      && (rec.Some? && !UpdateUploadMeta(s.meta, rec.value).threw ==>
            && !r.uploadEnabled && r.deleteEnabled
            && (r.uploadPolling <==> Truthy(GetOpt(response, "upload_id"))))
    ensures s.selectedFile.Some? && r.uploadPolling ==> HeaderSafe(s.token) && UploadAccepted(reply) && Truthy(GetOpt(r.currentUpload, "upload_id"))
    ensures s.selectedFile.Some? && r.uploadPolling ==> !r.uploadEnabled
    ensures s.selectedFile.Some? && HeaderSafe(s.token) && reply.XhrLoaded? && reply.response.status == 401 ==>
      r.token == HandleUnauthorized(s.token, promptInput)
    ensures !(HeaderSafe(s.token) && reply.XhrLoaded? && reply.response.status == 401) ==> r.token == s.token
  {
    match s.selectedFile
    case None => s
    case Some(file) =>
      var s1 := s.(uploadPolling := false, analysisPolling := false, currentAnalysisId := Null,
                   latestAnalysisResult := Null, uploadEnabled := false, analyzeEnabled := false,
                   deleteEnabled := false);
      if !HeaderSafe(s.token) then s1
      else
        match reply
        case XhrNetworkError => s1.(uploadEnabled := true)
        case XhrLoaded(resp) =>
          if resp.status == 401 then s1.(token := HandleUnauthorized(s1.token, promptInput), uploadEnabled := true)
          else if !IsOk(resp.status) then s1.(uploadEnabled := true)
          else
            match resp.json
            case None => s1.(uploadEnabled := true)
            case Some(response) =>
              var s2 := s1.(currentUpload := response);
              match UploadDisplayRecord(response, file)
              case None => s2.(uploadEnabled := true)
              case Some(record) =>
                var u := UpdateUploadMeta(s2.meta, record);
                var s3 := s2.(meta := u.view);
                if u.threw then s3.(uploadEnabled := true)
                else
                  var s4 := s3.(deleteEnabled := true);
                  if Truthy(GetOpt(response, "upload_id")) then s4.(uploadPolling := true) else s4
  }

  /** One tick of the upload poll, and whether it disarmed the timer. */
  datatype UploadTick = UploadTick(next: Session, stop: bool)

  /** The status a successful poll reply reports (`undefined` if none). */
  function ReportedStatus(outcome: Result<ApiBody, ApiError>): Value
    requires outcome.Ok?
  {
    GetOpt(AsValue(outcome.value), "status")
  }

  /** The panel after an upload status reply: refreshed from the merged
      record, and showing the `ready` badge when the reply said
      `ready_for_analysis`. */
  function RefreshedPanel(m: MetaView, merged: Value, status: Value): (v: MetaView)
    ensures status != Str("ready_for_analysis") ==> v == UpdateUploadMeta(m, merged).view
    ensures status == Str("ready_for_analysis") ==> v.badge == Some(BadgeFor("ready"))
    ensures v.(badge := UpdateUploadMeta(m, merged).view.badge) == UpdateUploadMeta(m, merged).view
  {
    var u := UpdateUploadMeta(m, merged).view;
    if status == Str("ready_for_analysis") then u.(badge := Some(BadgeFor("ready"))) else u
  }

  /** What the upload poll does with a successful reply `data`. It is
      merged into the upload record, every property it carries overwriting
      the old one, and the panel is refreshed from the merged record.
      Exactly `ready` and `ready_for_analysis` disarm the timer and enable
      analysis; exactly `error` disarms it and keeps analysis disabled;
      every other status, in any other casing, leaves it armed. */
  function ApplyUploadStatus(s: Session, data: Value): (t: UploadTick)
    ensures t.next.currentUpload == Merge(s.currentUpload, data)
    ensures t.stop <==> UploadStopsOn(GetOpt(data, "status"))
    ensures t.stop ==> (t.next.analyzeEnabled <==> UploadReadyOn(GetOpt(data, "status")))
    ensures t.next.uploadPolling == (s.uploadPolling && !t.stop)
    ensures !t.stop ==> t.next.analyzeEnabled == s.analyzeEnabled
    ensures t.next.meta == RefreshedPanel(s.meta, Merge(s.currentUpload, data), GetOpt(data, "status"))
    ensures t.next == s.(currentUpload := t.next.currentUpload, meta := t.next.meta,
                         uploadPolling := t.next.uploadPolling, analyzeEnabled := t.next.analyzeEnabled)
  {
    var merged := Merge(s.currentUpload, data);
    var u := UpdateUploadMeta(s.meta, merged);
    var s1 := s.(currentUpload := merged, meta := RefreshedPanel(s.meta, merged, GetOpt(data, "status")));
    TerminalStatusDoesNotThrow(s.meta, s.currentUpload, data);
    if u.threw then UploadTick(s1, false)
    else
      match Get(data, "status")
      case None => UploadTick(s1, false)
      case Some(status) =>
        if status == Str("ready") then
          UploadTick(s1.(uploadPolling := false, analyzeEnabled := true), true)
        else if status == Str("ready_for_analysis") then
          UploadTick(s1.(uploadPolling := false, analyzeEnabled := true), true)
        else if status == Str("error") then
          UploadTick(s1.(uploadPolling := false, analyzeEnabled := false), true)
        else UploadTick(s1, false)
  }

  /** One tick of the upload poll: the status request, then the reply
      applied as above. A failed request changes nothing but (on a 401) the
      token, and does not disarm the timer. */
  function UploadPoll(s: Session, ex: Exchange): (t: UploadTick)
    ensures var f := Fetch(s, ex);
      && (f.outcome.Err? ==> t == UploadTick(f.session, false))
      && (f.outcome.Ok? ==> t == ApplyUploadStatus(f.session, AsValue(f.outcome.value)))
      && (f.outcome.Ok? ==> t.next.currentUpload == Merge(s.currentUpload, AsValue(f.outcome.value)))
      && (f.outcome.Ok? ==> t.next.meta == RefreshedPanel(s.meta, t.next.currentUpload, ReportedStatus(f.outcome)))
      && (f.outcome.Err? ==> t.next.meta == s.meta)
      && (t.stop <==> f.outcome.Ok? && UploadStopsOn(ReportedStatus(f.outcome)))
      && (t.stop ==> (t.next.analyzeEnabled <==> UploadReadyOn(ReportedStatus(f.outcome))))
      && t.next.token == f.session.token
    ensures t.next.uploadPolling == (s.uploadPolling && !t.stop)
    ensures !t.stop ==> t.next.analyzeEnabled == s.analyzeEnabled
    ensures t.next == s.(token := t.next.token, currentUpload := t.next.currentUpload, meta := t.next.meta,
                         uploadPolling := t.next.uploadPolling, analyzeEnabled := t.next.analyzeEnabled)
  {
    var f := Fetch(s, ex);
    match f.outcome
    case Err(_) => UploadTick(f.session, false)
    case Ok(body) => ApplyUploadStatus(f.session, AsValue(body))
  }

  /** A reply whose status is a string reaches the merged record unchanged,
      so refreshing the panel from it cannot throw. */
  lemma TerminalStatusDoesNotThrow(m: MetaView, current: Value, data: Value)
    ensures GetOpt(data, "status").Str? ==> !UpdateUploadMeta(m, Merge(current, data)).threw
  {
    if !GetOpt(data, "status").Str? {
      return;
    }
    var merged := Merge(current, data);
    assert IsNamedKey("status") by { assert !('0' <= "status"[0] <= '9'); }
    assert data.Obj?;
    assert GetOpt(merged, "status") == GetOpt(data, "status");
  }

  // ---------------------------------------------------------------------
  // Analysis

  /** `beginAnalysis` with the reply it awaits. Without a truthy
      `currentUpload.upload_id` it does nothing. Otherwise it first disarms
      the analysis timer, forgets the previous result and disables the
      button; a failed request, or a reply of `null` (reading `analysis_id`
      throws), re-enables the button; any other reply stores its
      `analysis_id` and arms the analysis poll when that id is truthy. */
  function BeginAnalysis(s: Session, ex: Exchange): (r: Session)
    ensures !Truthy(GetOpt(s.currentUpload, "upload_id")) ==> r == s
    ensures Truthy(GetOpt(s.currentUpload, "upload_id")) ==>
      && r.latestAnalysisResult == Null
      && r.token == Fetch(s, ex).session.token
      && (r.analysisPolling ==> Truthy(r.currentAnalysisId) && !r.analyzeEnabled)
      && (r.analyzeEnabled <==> ReplyOutcome(ex.reply).Err? || IsNullish(AsValue(ReplyOutcome(ex.reply).value)))
      && (!r.analyzeEnabled ==> r.currentAnalysisId == GetOpt(AsValue(ReplyOutcome(ex.reply).value), "analysis_id"))
      && (!r.analyzeEnabled ==> (r.analysisPolling <==> Truthy(r.currentAnalysisId)))
      && (r.analyzeEnabled ==> r.currentAnalysisId == s.currentAnalysisId && r.meta == s.meta && !r.analysisPolling)
      && (!r.analyzeEnabled ==> r.meta == s.meta.(badge := Some(BadgeFor("analyzing"))))
    ensures r.selectedFile == s.selectedFile && r.currentUpload == s.currentUpload
    ensures r.deleteEnabled == s.deleteEnabled
    ensures r.uploadPolling == s.uploadPolling && r.uploadEnabled == s.uploadEnabled
  {
    if !Truthy(GetOpt(s.currentUpload, "upload_id")) then s
    else
      var s1 := s.(analysisPolling := false, latestAnalysisResult := Null, analyzeEnabled := false);
      var f := Fetch(s1, ex);
      var s2 := f.session;
      match f.outcome
      case Err(_) => s2.(analyzeEnabled := true)
      case Ok(body) =>
        match Get(AsValue(body), "analysis_id")
        case None => s2.(analyzeEnabled := true)
        case Some(id) =>
          var s3 := s2.(currentAnalysisId := id, meta := s2.meta.(badge := Some(BadgeFor("analyzing"))));
          if Truthy(id) then s3.(analysisPolling := true) else s3
  }

  /** One tick of the analysis poll: whether it disarmed the timer and
      whether it asks for the result. */
  datatype AnalysisTick = AnalysisTick(next: Session, stop: bool, fetchResult: bool)

  /** What the analysis poll does with a successful reply `data`. Only
      exactly `done` and `error` disarm the timer and re-enable the button,
      and only `done` asks for the result; `completed`, any other casing and
      any unknown status keep polling, with no bound. A status that is a
      truthy non-string makes the badge update throw before any test, so it
      too keeps polling. */
  function ApplyAnalysisStatus(s: Session, data: Value): (t: AnalysisTick)
    ensures t.stop <==> AnalysisStopsOn(GetOpt(data, "status"))
    ensures t.fetchResult <==> GetOpt(data, "status") == Str("done")
    ensures t.next.analysisPolling == (s.analysisPolling && !t.stop)
    ensures t.stop ==> t.next.analyzeEnabled
    ensures !t.stop ==> t.next.analyzeEnabled == s.analyzeEnabled
    ensures IsNullish(data) || StatusBadge(GetOpt(data, "status")).None? ==> t.next.meta == s.meta
    ensures !IsNullish(data) && StatusBadge(GetOpt(data, "status")).Some? ==>
      t.next.meta == s.meta.(badge := StatusBadge(GetOpt(data, "status")))
    ensures t.stop && GetOpt(data, "status") == Str("error") ==> t.next.meta.badge == Some(BadgeFor("error"))
    ensures t.next == s.(meta := t.next.meta,
                         analysisPolling := t.next.analysisPolling, analyzeEnabled := t.next.analyzeEnabled)
  {
    match Get(data, "status")
    case None => AnalysisTick(s, false, false)
    case Some(status) =>
      match StatusBadge(status)
      case None => AnalysisTick(s, false, false)
      case Some(badge) =>
        var s1 := s.(meta := s.meta.(badge := Some(badge)));
        if status == Str("done") then
          AnalysisTick(s1.(analysisPolling := false, analyzeEnabled := true), true, true)
        else if status == Str("error") then
          AnalysisTick(s1.(analysisPolling := false, analyzeEnabled := true, meta := s1.meta.(badge := Some(BadgeFor("error")))), true, false)
        else AnalysisTick(s1, false, false)
  }

  /** One tick of the analysis poll: the status request, then the reply
      applied as above. A failed request changes nothing but (on a 401) the
      token, and keeps polling. */
  function AnalysisPoll(s: Session, ex: Exchange): (t: AnalysisTick)
    ensures var f := Fetch(s, ex);
      && (f.outcome.Err? ==> t == AnalysisTick(f.session, false, false))
      && (f.outcome.Ok? ==> t == ApplyAnalysisStatus(f.session, AsValue(f.outcome.value)))
      && (t.stop <==> f.outcome.Ok? && AnalysisStopsOn(ReportedStatus(f.outcome)))
      && (t.fetchResult <==> f.outcome.Ok? && ReportedStatus(f.outcome) == Str("done"))
      && (f.outcome.Err? ==> t.next.meta == s.meta)
      && t.next.token == f.session.token
    ensures t.fetchResult ==> t.stop
    ensures t.next.analysisPolling == (s.analysisPolling && !t.stop)
    ensures t.stop ==> t.next.analyzeEnabled
    ensures !t.stop ==> t.next.analyzeEnabled == s.analyzeEnabled
    ensures t.next == s.(token := t.next.token, meta := t.next.meta,
                         analysisPolling := t.next.analysisPolling, analyzeEnabled := t.next.analyzeEnabled)
  {
    var f := Fetch(s, ex);
    match f.outcome
    case Err(_) => AnalysisTick(f.session, false, false)
    case Ok(body) => ApplyAnalysisStatus(f.session, AsValue(body))
  }

  /** `fetchAnalysisResult` with the reply it awaits: without a truthy
      analysis id it does nothing; a failed request changes nothing but the
      token; a successful one stores the result, whatever it is, and marks
      the badge done unless laying the result out throws. */
  function FetchAnalysisResult(s: Session, ex: Exchange): (r: Session)
    ensures !Truthy(s.currentAnalysisId) ==> r == s
    ensures Truthy(s.currentAnalysisId) ==>
      var f := Fetch(s, ex);
      && r.token == f.session.token
      && (f.outcome.Err? ==> r == f.session)
      && (f.outcome.Ok? ==> r.latestAnalysisResult == AsValue(f.outcome.value))
      && (f.outcome.Ok? && !Threw(RenderResults(AsValue(f.outcome.value))) ==> r.meta == s.meta.(badge := Some(BadgeFor("done"))))
      && (f.outcome.Ok? && Threw(RenderResults(AsValue(f.outcome.value))) ==> r.meta == s.meta)
    ensures r == s.(token := r.token, latestAnalysisResult := r.latestAnalysisResult, meta := r.meta)
  {
    if !Truthy(s.currentAnalysisId) then s
    else
      var f := Fetch(s, ex);
      var s1 := f.session;
      match f.outcome
      case Err(_) => s1
      case Ok(body) =>
        var result := AsValue(body);
        var s2 := s1.(latestAnalysisResult := result);
        if Threw(RenderResults(result)) then s2
        else s2.(meta := s2.meta.(badge := Some(BadgeFor("done"))))
  }

  // ---------------------------------------------------------------------
  // Download

  /** `downloadOriginalPdf` with the reply it awaits: without a truthy
      upload id it does nothing; otherwise it requests the file, and hands
      the body to the browser or shows the failure. Whatever comes back,
      only the token can change, and only through the hook on a 401. */
  function DownloadOriginalPdf(s: Session, ex: Exchange): (r: Session)
    ensures r == s.(token := r.token)
    ensures Truthy(GetOpt(s.currentUpload, "upload_id")) && ex.reply.Responded? && ex.reply.response.status == 401 ==>
      r.token == HandleUnauthorized(s.token, ex.promptInput)
    ensures !(Truthy(GetOpt(s.currentUpload, "upload_id")) && ex.reply.Responded? && ex.reply.response.status == 401) ==>
      r == s
  {
    if !Truthy(GetOpt(s.currentUpload, "upload_id")) then s
    else Fetch(s, ex).session
  }

  // ---------------------------------------------------------------------
  // Reset

  /** `resetState`: every session variable back to `null`, both timers
      disarmed, every button disabled and the panel hidden. Only the token
      and the panel's last contents survive. */
  function ResetState(s: Session): (r: Session)
    ensures r.selectedFile.None? && r.currentUpload == Null && r.currentAnalysisId == Null && r.latestAnalysisResult == Null
    ensures !r.uploadPolling && !r.analysisPolling && !r.uploadEnabled && !r.analyzeEnabled && !r.deleteEnabled
    ensures r.token == s.token && !r.meta.visible
    ensures r.meta == s.meta.(visible := false)
  {
    Session(s.token, None, Null, Null, Null, false, false, false, false, false, s.meta.(visible := false))
  }

  /** Resetting twice is resetting once. */
  lemma ResetStateIdempotent(s: Session)
    ensures ResetState(ResetState(s)) == ResetState(s)
  {
  }

  /** `deleteCurrentUpload` with the confirmation and the reply it awaits:
      nothing happens without an upload id or without confirmation; a
      successful delete resets the session; a failed one keeps it. */
  function DeleteCurrentUpload(s: Session, confirmed: bool, ex: Exchange): (r: Session)
    ensures !Truthy(GetOpt(s.currentUpload, "upload_id")) || !confirmed ==> r == s
    ensures Truthy(GetOpt(s.currentUpload, "upload_id")) && confirmed ==>
      var f := Fetch(s, ex);
      r == if f.outcome.Ok? then ResetState(f.session) else f.session
  {
    if !Truthy(GetOpt(s.currentUpload, "upload_id")) || !confirmed then s
    else
      var f := Fetch(s, ex);
      if f.outcome.Ok? then ResetState(f.session) else f.session
  }
}

=== FILE: status_vocabulary.dfy ===
/** The status strings the server reports, how the client labels them for
    display, how it folds synonyms into one badge key, and which exact strings
    end each poll loop. */
module StatusVocabulary {
  import opened JsStrings
  import opened JsValues

  /** The display labels, keyed by lower-cased status. */
  const Labels: map<string, string> := map[
    "uploaded" := "Uploaded",
    "extracting" := "Extracting",
    "ready" := "Ready",
    "analyzing" := "Analyzing",
    "done" := "Done",
    "error" := "Error",
    "ready_for_analysis" := "Ready",
    "queued" := "Queued",
    "processing" := "Processing",
    "running" := "Running",
    "completed" := "Done"
  ]

  /** The statuses that are folded into another badge key, and the key each
      one folds to. */
  const Folds: map<string, string> := map[
    "ready_for_analysis" := "ready",
    "completed" := "done",
    "queued" := "analyzing",
    "processing" := "analyzing",
    "running" := "analyzing"
  ]

  const Synonyms: set<string> := Folds.Keys

  /** The badge key of a status: lower-cased, with `ready_for_analysis`
      folded to `ready`, `completed` to `done` and `queued`, `processing`,
      `running` to `analyzing`; anything else is kept (lower-cased). */
  function Normalize(status: string): (r: string)
    ensures IsLowerCase(r)
    ensures r == "" <==> status == ""
    ensures r !in Synonyms
    ensures Lower(status) !in Synonyms ==> r == Lower(status)
    ensures Lower(status) in Folds ==> r == Folds[Lower(status)]
  {
    if status == "" then ""
    else
      var value := Lower(status);
      if value == "ready_for_analysis" then "ready"
      else if value == "completed" then "done"
      else if value in {"queued", "processing", "running"} then "analyzing"
      else value
  }

  /** Normalizing twice is normalizing once. */
  lemma NormalizeIdempotent(status: string)
    ensures Normalize(Normalize(status)) == Normalize(status)
  {
    LowerOfLowerCase(Normalize(status));
  }

  /** The badge key ignores case: a status and its lower-cased form get the
      same key. */
  lemma NormalizeIgnoresCase(status: string)
    ensures Normalize(status) == Normalize(Lower(status))
  {
    LowerOfLowerCase(Lower(status));
  }

  /** The human-readable label of a status: `"—"` for the empty status, the
      table's label when the lower-cased status is a known key, and the
      status itself, in its original casing, otherwise. */
  function FormatStatusLabel(status: string): (r: string)
    ensures r != ""
    ensures status == "" ==> r == "—"
    ensures status != "" && Lower(status) !in Labels ==> r == status
    ensures status != "" && Lower(status) in Labels ==> r == Labels[Lower(status)]
  {
    if status == "" then "—"
    else
      var key := Lower(status);
      if key in Labels then Labels[key] else status
  }

  /** Labels ignore case for the known statuses, and the synonyms the badge
      folds together share a label: both ready forms read "Ready", both
      completion forms read "Done". */
  lemma LabelsOfSynonyms(status: string)
    ensures Lower(status) in {"ready", "ready_for_analysis"} ==> FormatStatusLabel(status) == "Ready"
    ensures Lower(status) in {"done", "completed"} ==> FormatStatusLabel(status) == "Done"
  {
  }

  /** For every known status other than the three running synonyms, labelling
      the badge key gives the same text as labelling the raw status; the
      running synonyms keep their own label ("Queued", "Processing",
      "Running") while their badge key reads "Analyzing". */
  lemma LabelAgreesWithBadgeKey(status: string)
    requires Lower(status) in Labels
    ensures Lower(status) !in {"queued", "processing", "running"} ==>
      FormatStatusLabel(Normalize(status)) == FormatStatusLabel(status)
    ensures Lower(status) in {"queued", "processing", "running"} ==>
      FormatStatusLabel(Normalize(status)) == "Analyzing" != FormatStatusLabel(status)
  {
    LowerOfLowerCase(Normalize(status));
  }

  /** An unknown status is shown verbatim, so two spellings of it differ in
      label while sharing a badge key. */
  lemma UnknownStatusKeepsCasing()
    ensures FormatStatusLabel("Paused") == "Paused"
    ensures FormatStatusLabel("paused") == "paused"
    ensures Normalize("Paused") == Normalize("paused") == "paused"
  {
  }

  // ---------------------------------------------------------------------
  // The label lookup as written reads a plain object literal, so a
  // lower-cased status that names a member of Object.prototype finds that
  // inherited member instead of falling through to the status itself.

  /** What the lookup as written returns: a string, or a member inherited
      from Object.prototype (the `Object` function for `constructor`,
      Object.prototype itself for `__proto__`), which is truthy and so is
      returned in place of the status. */
  datatype LabelValue = Text(text: string) | Inherited(member: string)

  /** The inherited members a lower-cased key can reach: property names are
      case-sensitive, and these are the only all-lower-case names on
      Object.prototype (`hasOwnProperty`, `toString`, ... are camel case). */
  const LowerCasePrototypeMembers: set<string> := {"constructor", "__proto__"}

  function FormatStatusLabelAsWritten(status: string): (r: LabelValue)
    ensures status != "" && Lower(status) in LowerCasePrototypeMembers ==> r.Inherited?
    ensures status == "" || Lower(status) !in LowerCasePrototypeMembers ==> r == Text(FormatStatusLabel(status))
  {
    if status == "" then Text("—")
    else
      var key := Lower(status);
      if key in Labels then Text(Labels[key])
      else if key in LowerCasePrototypeMembers then Inherited(key)
      else Text(status)
  }

  /** The discrepancy: the status "constructor" is labelled with the
      inherited `Object` function rather than shown verbatim, while the
      corrected lookup shows it verbatim. */
  lemma PrototypeKeyShadowsStatus()
    ensures FormatStatusLabelAsWritten("constructor") == Inherited("constructor")
    ensures FormatStatusLabelAsWritten("Constructor") != Text("Constructor")
    ensures FormatStatusLabel("Constructor") == "Constructor"
  {
    LowerOfLowerCase("constructor");
    assert Lower("Constructor") == "constructor";
  }

  // ---------------------------------------------------------------------
  // The poll loops compare the raw status with exact, case-sensitive string
  // equality, independently of the display normalization above.

  /** The upload poll stops on exactly `ready`, `ready_for_analysis` or
      `error`, compared case-sensitively. */
  predicate UploadStopsOn(status: Value): (r: bool)
    ensures r <==> status.Str? && status.s in {"ready", "ready_for_analysis", "error"}
  {
    status == Str("ready") || status == Str("ready_for_analysis") || status == Str("error")
  }

  /** The upload poll stops and unblocks analysis on exactly `ready` or
      `ready_for_analysis`. */
  predicate UploadReadyOn(status: Value): (r: bool)
    ensures r ==> UploadStopsOn(status)
    ensures r <==> status.Str? && status.s in {"ready", "ready_for_analysis"}
  {
    status == Str("ready") || status == Str("ready_for_analysis")
  }

  /** The analysis poll stops on exactly `done` or `error`, compared
      case-sensitively. */
  predicate AnalysisStopsOn(status: Value): (r: bool)
    ensures r <==> status.Str? && status.s in {"done", "error"}
  {
    status == Str("done") || status == Str("error")
  }

  /** Every status that stops a poll is written in lower case: the upload
      poll stops only on statuses keyed `ready` or `error`, unblocking
      analysis exactly for those keyed `ready`, and the analysis poll only
      on `done` and `error`, which are no synonyms and so are their own
      badge keys. */
  lemma StopStatusesAreCanonical(status: Value)
    ensures UploadStopsOn(status) ==> Lower(status.s) == status.s && Normalize(status.s) in {"ready", "error"}
    ensures UploadStopsOn(status) ==> (UploadReadyOn(status) <==> Normalize(status.s) == "ready")
    ensures AnalysisStopsOn(status) ==> status.s !in Synonyms && Normalize(status.s) == status.s
  {
    CanonicalStatus("ready");
    CanonicalStatus("error");
    CanonicalStatus("done");
    LowerOfLowerCase("ready_for_analysis");
  }

  /** A lower-case status that is no synonym is its own badge key. */
  lemma CanonicalStatus(status: string)
    requires status != "" && IsLowerCase(status) && status !in Synonyms
    ensures Lower(status) == status && Normalize(status) == status
  {
    LowerOfLowerCase(status);
  }

  /** The stop tests disagree with the display: `READY` gets the badge key
      `ready` and the label "Ready" yet does not stop the upload poll, and
      `completed` gets the badge key `done` and the label "Done" yet does not
      stop the analysis poll. */
  lemma StopTestsIgnoreNormalization()
    ensures Normalize("READY") == "ready" && FormatStatusLabel("READY") == "Ready"
    ensures !UploadStopsOn(Str("READY"))
    ensures Normalize("completed") == "done" && FormatStatusLabel("completed") == "Done"
    ensures !AnalysisStopsOn(Str("completed"))
  {
  }
}

=== FILE: upload_meta.dfy ===
/** The upload details panel: file name, page count, size and the status
    badge, refreshed from each upload record the client sees. A field with
    nothing new to show keeps what it showed before. */
module UploadMeta {
  import opened Wrappers
  import opened JsStrings
  import opened JsValues
  import opened FileValidator
  import opened StatusVocabulary

  /** The badge: its text and its normalized key (the CSS modifier). */
  datatype Badge = Badge(text: string, key: string)

  const BadgeBaseClass: string := "status-badge"
  const BadgeKeyPrefix: string := "status-badge status-"

  /** The badge's class attribute: the base class, followed by the key's
      modifier class when there is a key. */
  function BadgeClass(b: Badge): (c: string)
    ensures b.key == "" <==> c == BadgeBaseClass
    ensures ClassModifier(c) == b.key
  {
    if b.key != "" then
      var c := BadgeKeyPrefix + b.key;
      assert c[..|BadgeKeyPrefix|] == BadgeKeyPrefix;
      assert c[|BadgeKeyPrefix|..] == b.key;
      c
    else BadgeBaseClass
  }

  /** Reads the badge key back out of a class attribute. */
  function ClassModifier(c: string): string {
    if |c| > |BadgeKeyPrefix| && c[..|BadgeKeyPrefix|] == BadgeKeyPrefix then c[|BadgeKeyPrefix|..] else ""
  }

  /** `updateStatusBadge(status)`: a falsy status shows "—" with no key; a
      string shows its label and key; any other value throws (`None`), since
      the label lookup calls `toLowerCase` on it. */
  function StatusBadge(status: Value): (r: Option<Badge>)
    ensures r.None? <==> Truthy(status) && !status.Str?
    ensures !Truthy(status) ==> r == Some(Badge("—", ""))
    ensures status.Str? ==> r == Some(Badge(FormatStatusLabel(status.s), Normalize(status.s)))
  {
    match status
    case Str(s) => Some(Badge(FormatStatusLabel(s), Normalize(s)))
    case _ => if Truthy(status) then None else Some(Badge("—", ""))
  }

  /** The badge for a status the client sets itself. */
  function BadgeFor(status: string): (b: Badge)
    requires status != ""
    ensures StatusBadge(Str(status)) == Some(b)
  {
    Badge(FormatStatusLabel(status), Normalize(status))
  }

  /** What the panel shows. `None` for a field the client has never set (the
      page's own placeholder). */
  datatype MetaView = MetaView(
    visible: bool,
    filename: Value,
    pages: Option<Value>,
    sizeBytes: Option<int>,
    badge: Option<Badge>)

  const InitialMeta: MetaView := MetaView(false, Undefined, None, None, None)

  /** The page count shown after reading `upload`: a numeric `pages`, even 0,
      wins; otherwise a truthy `page_count`; otherwise the previous value
      stays on screen. */
  function PagesShown(upload: Value, previous: Option<Value>): (r: Option<Value>)
    requires !IsNullish(upload)
    ensures GetOpt(upload, "pages").Num? ==> r == Some(GetOpt(upload, "pages"))
    ensures !GetOpt(upload, "pages").Num? && Truthy(GetOpt(upload, "page_count")) ==> r == Some(GetOpt(upload, "page_count"))
    ensures !GetOpt(upload, "pages").Num? && !Truthy(GetOpt(upload, "page_count")) ==> r == previous
  {
    var pages := GetOpt(upload, "pages");
    var pageCount := GetOpt(upload, "page_count");
    if pages.Num? then Some(pages)
    else if Truthy(pageCount) then Some(pageCount)
    else previous
  }

  /** The two aliases are not treated alike: `pages: 0` is shown, while
      `page_count: 0` is ignored and the previous count stays. */
  lemma PageAliasesAsymmetric(previous: Option<Value>)
    ensures PagesShown(Obj(map["pages" := Num(0)]), previous) == Some(Num(0))
    ensures PagesShown(Obj(map["page_count" := Num(0)]), previous) == previous
    ensures PagesShown(Obj(map["pages" := Num(3), "page_count" := Num(7)]), previous) == Some(Num(3))
    ensures PagesShown(Obj(map["pages" := Str("12"), "page_count" := Num(7)]), previous) == Some(Num(7))
  {
  }

  /** Once a page count is on screen no later record clears it, and a
      record that names neither alias leaves it exactly as it was. */
  lemma PagesOnceShownStay(upload: Value, previous: Option<Value>)
    requires !IsNullish(upload)
    ensures previous.Some? ==> PagesShown(upload, previous).Some?
    ensures upload.Obj? && "pages" !in upload.fields && "page_count" !in upload.fields ==>
      PagesShown(upload, previous) == previous
  {
  }

  /** The panel after `updateUploadMeta(upload)`, and whether it threw. The
      name, pages and size are written before the badge, so a throw leaves
      them updated and the badge as it was. */
  datatype MetaUpdate = MetaUpdate(view: MetaView, threw: bool)

  function UpdateUploadMeta(m: MetaView, upload: Value): (u: MetaUpdate)
    ensures !Truthy(upload) ==> u == MetaUpdate(m, false)
    ensures Truthy(upload) ==> u.view.visible
    ensures Truthy(upload) ==> u.view.filename == Or(GetOpt(upload, "filename"), Str("—"))
    ensures Truthy(upload) ==> u.view.pages == PagesShown(upload, m.pages)
    ensures Truthy(upload) && GetOpt(upload, "size_bytes").Num? ==> u.view.sizeBytes == Some(GetOpt(upload, "size_bytes").n)
    ensures Truthy(upload) && !GetOpt(upload, "size_bytes").Num? ==> u.view.sizeBytes == m.sizeBytes
    ensures Truthy(upload) ==> (u.threw <==> StatusBadge(Or(GetOpt(upload, "status"), Str("uploaded"))).None?)
    ensures Truthy(upload) && u.threw ==> u.view.badge == m.badge
    ensures Truthy(upload) && !u.threw ==> u.view.badge == StatusBadge(Or(GetOpt(upload, "status"), Str("uploaded")))
  {
    if !Truthy(upload) then MetaUpdate(m, false)
    else
      var size := GetOpt(upload, "size_bytes");
      var m1 := m.(
        visible := true,
        filename := Or(GetOpt(upload, "filename"), Str("—")),
        pages := PagesShown(upload, m.pages),
        sizeBytes := if size.Num? then Some(size.n) else m.sizeBytes);
      match StatusBadge(Or(GetOpt(upload, "status"), Str("uploaded")))
      case None => MetaUpdate(m1, true)
      case Some(b) => MetaUpdate(m1.(badge := Some(b)), false)
  }

  /** A record whose status is a string (or absent) never throws: only a
      truthy non-string status makes the update throw. */
  lemma StringStatusNeverThrows(m: MetaView, upload: Value)
    requires Truthy(upload)
    requires GetOpt(upload, "status").Str? || !Truthy(GetOpt(upload, "status"))
    ensures !UpdateUploadMeta(m, upload).threw
  {
  }

  /** Refreshing the panel twice from the same record is refreshing it
      once: every field shown depends on the record, or is kept. */
  lemma UpdateUploadMetaIdempotent(m: MetaView, upload: Value)
    ensures var u := UpdateUploadMeta(m, upload);
      UpdateUploadMeta(u.view, upload) == u
  {
  }

  /** A record that carries a numeric `pages`, a numeric `size_bytes` and a
      string status determines the whole visible panel: what was shown
      before does not matter. */
  lemma CompleteRecordDeterminesPanel(m1: MetaView, m2: MetaView, upload: Value)
    requires upload.Obj?
    requires GetOpt(upload, "pages").Num? && GetOpt(upload, "size_bytes").Num?
    requires GetOpt(upload, "status").Str?
    ensures UpdateUploadMeta(m1, upload) == UpdateUploadMeta(m2, upload)
  {
  }

  /** The record displayed right after an upload: the response with its
      `filename` replaced by `response.filename || file.name` (an empty name
      falls back) and its `size_bytes` by `response.size_bytes ?? file.size`
      (a 0 is kept). `None` when the response is `null`, on which reading
      `filename` throws. */
  function UploadDisplayRecord(response: Value, file: File): (r: Option<Value>)
    ensures r.None? <==> IsNullish(response)
    ensures r.Some? ==> r.value.Obj?
    ensures r.Some? ==> r.value.fields.Keys == OwnProperties(response).Keys + {"filename", "size_bytes"}
    ensures r.Some? ==> r.value.fields["filename"] == Or(GetOpt(response, "filename"), Str(file.name))
    ensures r.Some? ==> r.value.fields["size_bytes"] == Coalesce(GetOpt(response, "size_bytes"), Num(file.size))
    ensures r.Some? ==> forall k :: k in OwnProperties(response) && k !in {"filename", "size_bytes"} ==>
      r.value.fields[k] == OwnProperties(response)[k]
  {
    match Get(response, "filename")
    case None => None
    case Some(name) =>
      var filename := Or(name, Str(file.name));
      var sizeBytes := Coalesce(GetOpt(response, "size_bytes"), Num(file.size));
      Some(Obj(OwnProperties(response)["filename" := filename]["size_bytes" := sizeBytes]))
  }

  /** A response that already carries a truthy `filename` and a non-nullish
      `size_bytes` is displayed as it is, whatever the local file. */
  lemma CompleteResponseDisplayedAsIs(response: Value, file: File)
    requires response.Obj?
    requires Truthy(GetOpt(response, "filename")) && !IsNullish(GetOpt(response, "size_bytes"))
    ensures UploadDisplayRecord(response, file) == Some(response)
  {
    var r := UploadDisplayRecord(response, file).value;
    assert "filename" in response.fields && "size_bytes" in response.fields;
    assert r.fields.Keys == response.fields.Keys;
    assert forall k :: k in r.fields ==> r.fields[k] == response.fields[k];
    assert r.fields == response.fields;
  }

  /** Right after an upload of a file with a name, the panel shows a name:
      the server's when truthy, the local one otherwise, never "—". */
  lemma UploadedPanelShowsName(m: MetaView, response: Value, file: File)
    requires !IsNullish(response) && file.name != ""
    ensures var rec := UploadDisplayRecord(response, file).value;
      var shown := UpdateUploadMeta(m, rec).view.filename;
      && (Truthy(GetOpt(response, "filename")) ==> shown == GetOpt(response, "filename"))
      && (!Truthy(GetOpt(response, "filename")) ==> shown == Str(file.name))
  {
    var rec := UploadDisplayRecord(response, file).value;
    assert GetOpt(rec, "filename") == rec.fields["filename"];
  }

  /** `||` and `??` differ on purpose-looking edge values: an empty server
      file name is replaced by the local one, a server size of 0 is kept. */
  lemma DisplayRecordFallbacks(file: File)
    ensures var r := UploadDisplayRecord(Obj(map["filename" := Str(""), "size_bytes" := Num(0)]), file);
      r.Some? && r.value.fields["filename"] == Str(file.name) && r.value.fields["size_bytes"] == Num(0)
    ensures var r := UploadDisplayRecord(Obj(map["upload_id" := Str("u1")]), file);
      r.Some? && r.value.fields["filename"] == Str(file.name) && r.value.fields["size_bytes"] == Num(file.size)
  {
  }
}

=== FILE: workflow.dfy ===
/** The page as a transition system: the events a user and the two interval
    timers produce, one step per event, and the invariants every reachable
    state keeps. A click on a disabled button does nothing, and a timer
    fires only while armed. */
module Workflow {
  import opened Wrappers
  import opened JsStrings
  import opened JsValues
  import opened FileValidator
  import opened StatusVocabulary
  import opened ApiGateway
  import opened UploadMeta
  import opened Session

  datatype Event =
    | ChooseFile(file: Option<File>)
    | ClickUpload(reply: XhrReply, promptInput: Option<string>)
    | UploadTimer(ex: Exchange)
    | ClickAnalyze(ex: Exchange)
    | AnalysisTimer(ex: Exchange, resultEx: Exchange)
    | ClickDelete(confirmed: bool, ex: Exchange)
    | ClickDownload(ex: Exchange)

  /** One event. A `done` analysis tick goes on to its single result fetch,
      whose reply is `resultEx`. A click on a disabled button and a tick of
      a disarmed timer change nothing. */
  function Step(s: Session, e: Event): (r: Session)
    ensures e.ClickUpload? && !s.uploadEnabled ==> r == s
    ensures e.ClickAnalyze? && !s.analyzeEnabled ==> r == s
    ensures e.ClickDelete? && !s.deleteEnabled ==> r == s
    ensures e.ClickDownload? && !s.deleteEnabled ==> r == s
    ensures e.UploadTimer? && !s.uploadPolling ==> r == s
    ensures e.AnalysisTimer? && !s.analysisPolling ==> r == s
  {
    match e
    case ChooseFile(file) => ValidateAndSetFile(s, file)
    case ClickUpload(reply, promptInput) =>
      if s.uploadEnabled then UploadSelectedFile(s, reply, promptInput) else s
    case UploadTimer(ex) =>
      if s.uploadPolling then UploadPoll(s, ex).next else s
    case ClickAnalyze(ex) =>
      if s.analyzeEnabled then BeginAnalysis(s, ex) else s
    case AnalysisTimer(ex, resultEx) =>
      if s.analysisPolling then
        var t := AnalysisPoll(s, ex);
        if t.fetchResult then FetchAnalysisResult(t.next, resultEx) else t.next
      else s
    case ClickDelete(confirmed, ex) =>
      if s.deleteEnabled then DeleteCurrentUpload(s, confirmed, ex) else s
    case ClickDownload(ex) =>
      if s.deleteEnabled then DownloadOriginalPdf(s, ex) else s
  }

  function Run(s: Session, es: seq<Event>): Session
    decreases |es|
  {
    if es == [] then s else Run(Step(s, es[0]), es[1..])
  }

  /** What every reachable state keeps:
      the selected file is always a valid one, and the upload button is only
      enabled with one; the token is never blank nor padded; an armed
      analysis timer always has an id to poll and never coexists with a
      result; an armed upload timer always has an upload record; the two
      timers are never armed together, and the analyze button is disabled
      while either is. */
  ghost predicate Invariant(s: Session) {
    && (s.selectedFile.Some? ==> Validate(s.selectedFile.value, MaxUploadMb) == Accepted)
    && (s.uploadEnabled ==> s.selectedFile.Some?)
    && s.token != "" && Trim(s.token) == s.token
    && (s.analysisPolling ==> Truthy(s.currentAnalysisId))
    && (s.analysisPolling ==> s.latestAnalysisResult == Null)
    && (s.uploadPolling ==> s.currentUpload.Obj?)
    && !(s.uploadPolling && s.analysisPolling)
    && (s.analyzeEnabled ==> !s.uploadPolling)
    && (s.analysisPolling ==> !s.analyzeEnabled)
  }

  lemma InitialInvariant()
    ensures Invariant(Initial())
  {
    var t := InitialToken;
    assert t[0] == 'd' && t[|t| - 1] == 'n';
    TrimUnpadded(t);
  }

  /** A value with a truthy property under a named key is an object. */
  lemma TruthyNamedFieldIsObject(v: Value, k: string)
    requires |k| > 0 && !('0' <= k[0] <= '9')
    requires Truthy(GetOpt(v, k))
    ensures v.Obj?
  {
    assert IsNamedKey(k);
  }

  /** A request keeps the token non-blank and trimmed. */
  lemma FetchKeepsTokenTrimmed(s: Session, ex: Exchange)
    requires s.token != "" && Trim(s.token) == s.token
    ensures var t := Fetch(s, ex).session.token; t != "" && Trim(t) == t
  {
    HandleUnauthorizedKeepsTokenTrimmed(s.token, ex.promptInput);
  }

  lemma ChooseFilePreserves(s: Session, file: Option<File>)
    requires Invariant(s)
    ensures Invariant(ValidateAndSetFile(s, file))
  {
  }

  lemma UploadPreserves(s: Session, reply: XhrReply, promptInput: Option<string>)
    requires Invariant(s) && s.uploadEnabled
    ensures Invariant(UploadSelectedFile(s, reply, promptInput))
  {
    var r := UploadSelectedFile(s, reply, promptInput);
    UploadKeepsTokenTrimmed(s, reply, promptInput);
    assert r.selectedFile == s.selectedFile && !r.analysisPolling && !r.analyzeEnabled;
    if r.uploadPolling {
      TruthyNamedFieldIsObject(r.currentUpload, "upload_id");
    }
  }

  /** An upload keeps the token non-blank and trimmed. */
  lemma UploadKeepsTokenTrimmed(s: Session, reply: XhrReply, promptInput: Option<string>)
    requires s.selectedFile.Some? && s.token != "" && Trim(s.token) == s.token
    ensures var t := UploadSelectedFile(s, reply, promptInput).token; t != "" && Trim(t) == t
  {
    HandleUnauthorizedKeepsTokenTrimmed(s.token, promptInput);
  }

  lemma UploadPollPreserves(s: Session, ex: Exchange)
    requires Invariant(s) && s.uploadPolling
    ensures Invariant(UploadPoll(s, ex).next)
  {
    var f := Fetch(s, ex);
    FetchKeepsTokenTrimmed(s, ex);
    assert Invariant(f.session);
    if f.outcome.Ok? {
      ApplyUploadStatusPreserves(f.session, AsValue(f.outcome.value));
    }
  }

  lemma ApplyUploadStatusPreserves(s: Session, data: Value)
    requires Invariant(s) && s.uploadPolling
    ensures Invariant(ApplyUploadStatus(s, data).next)
  {
  }

  lemma BeginAnalysisPreserves(s: Session, ex: Exchange)
    requires Invariant(s) && s.analyzeEnabled
    ensures Invariant(BeginAnalysis(s, ex))
  {
    FetchKeepsTokenTrimmed(s, ex);
  }

  lemma AnalysisPollPreserves(s: Session, ex: Exchange)
    requires Invariant(s) && s.analysisPolling
    ensures Invariant(AnalysisPoll(s, ex).next)
  {
    var f := Fetch(s, ex);
    FetchKeepsTokenTrimmed(s, ex);
    assert Invariant(f.session);
    if f.outcome.Ok? {
      ApplyAnalysisStatusPreserves(f.session, AsValue(f.outcome.value));
    }
  }

  lemma ApplyAnalysisStatusPreserves(s: Session, data: Value)
    requires Invariant(s) && s.analysisPolling
    ensures Invariant(ApplyAnalysisStatus(s, data).next)
  {
  }

  lemma FetchResultPreserves(s: Session, ex: Exchange)
    requires Invariant(s) && !s.analysisPolling
    ensures Invariant(FetchAnalysisResult(s, ex))
  {
    FetchKeepsTokenTrimmed(s, ex);
  }

  lemma AnalysisTimerPreserves(s: Session, ex: Exchange, resultEx: Exchange)
    requires Invariant(s) && s.analysisPolling
    ensures Invariant(Step(s, AnalysisTimer(ex, resultEx)))
  {
    var t := AnalysisPoll(s, ex);
    var r := AnalysisTimerStep(s, ex, resultEx);
    AnalysisPollPreserves(s, ex);
    if t.fetchResult {
      FetchResultPreserves(t.next, resultEx);
    }
  }

  /** The step of a click on the enabled upload button. */
  lemma ClickUploadStep(s: Session, reply: XhrReply, promptInput: Option<string>) returns (r: Session)
    requires s.uploadEnabled
    ensures r == Step(s, ClickUpload(reply, promptInput)) && r == UploadSelectedFile(s, reply, promptInput)
  {
    r := UploadSelectedFile(s, reply, promptInput);
  }

  /** The step of an armed upload timer. */
  lemma UploadTimerStep(s: Session, ex: Exchange) returns (r: Session)
    requires s.uploadPolling
    ensures r == Step(s, UploadTimer(ex)) && r == UploadPoll(s, ex).next
  {
    r := UploadPoll(s, ex).next;
  }

  /** The step of a click on the enabled analyze button. */
  lemma ClickAnalyzeStep(s: Session, ex: Exchange) returns (r: Session)
    requires s.analyzeEnabled
    ensures r == Step(s, ClickAnalyze(ex)) && r == BeginAnalysis(s, ex)
  {
    r := BeginAnalysis(s, ex);
  }

  /** The step of an armed analysis timer: the poll, then the result fetch
      when the poll asks for it. */
  lemma AnalysisTimerStep(s: Session, ex: Exchange, resultEx: Exchange) returns (r: Session)
    requires s.analysisPolling
    ensures r == Step(s, AnalysisTimer(ex, resultEx))
    ensures AnalysisPoll(s, ex).fetchResult ==> r == FetchAnalysisResult(AnalysisPoll(s, ex).next, resultEx)
    ensures !AnalysisPoll(s, ex).fetchResult ==> r == AnalysisPoll(s, ex).next
  {
    r := Step(s, AnalysisTimer(ex, resultEx));
  }

  lemma DeletePreserves(s: Session, confirmed: bool, ex: Exchange)
    requires Invariant(s)
    ensures Invariant(DeleteCurrentUpload(s, confirmed, ex))
  {
    FetchKeepsTokenTrimmed(s, ex);
  }

  lemma DownloadPreserves(s: Session, ex: Exchange)
    requires Invariant(s)
    ensures Invariant(DownloadOriginalPdf(s, ex))
  {
    FetchKeepsTokenTrimmed(s, ex);
  }

  /** Every event keeps the invariant. */
  lemma StepPreservesInvariant(s: Session, e: Event)
    requires Invariant(s)
    ensures Invariant(Step(s, e))
  {
    match e
    case ChooseFile(file) => ChooseFilePreserves(s, file);
    case ClickUpload(reply, promptInput) =>
      if s.uploadEnabled {
        var r := ClickUploadStep(s, reply, promptInput);
        UploadPreserves(s, reply, promptInput);
      }
    case UploadTimer(ex) =>
      if s.uploadPolling {
        var r := UploadTimerStep(s, ex);
        UploadPollPreserves(s, ex);
      }
    case ClickAnalyze(ex) =>
      if s.analyzeEnabled {
        var r := ClickAnalyzeStep(s, ex);
        BeginAnalysisPreserves(s, ex);
      }
    case AnalysisTimer(ex, resultEx) =>
      if s.analysisPolling {
        AnalysisTimerPreserves(s, ex, resultEx);
      }
    case ClickDelete(confirmed, ex) =>
      if s.deleteEnabled {
        DeletePreserves(s, confirmed, ex);
      }
    case ClickDownload(ex) =>
      if s.deleteEnabled {
        DownloadPreserves(s, ex);
      }
  }

  lemma {:induction false} RunPreservesInvariant(s: Session, es: seq<Event>)
    requires Invariant(s)
    ensures Invariant(Run(s, es))
    decreases |es|
  {
    if es != [] {
      StepPreservesInvariant(s, es[0]);
      RunPreservesInvariant(Step(s, es[0]), es[1..]);
    }
  }

  /** Every state reachable from page load keeps the invariant. */
  lemma ReachableStatesKeepInvariant(es: seq<Event>)
    ensures Invariant(Run(Initial(), es))
  {
    InitialInvariant();
    RunPreservesInvariant(Initial(), es);
  }
}

module WorkflowProperties {
  import opened Wrappers
  import opened JsStrings
  import opened JsValues
  import opened FileValidator
  import opened StatusVocabulary
  import opened ApiGateway
  import opened UploadMeta
  import opened Session
  import opened Workflow

  lemma {:induction false} RunAppend(s: Session, a: seq<Event>, b: seq<Event>)
    ensures Run(s, a + b) == Run(Run(s, a), b)
    decreases |a|
  {
    if a != [] {
      assert (a + b)[1..] == a[1..] + b;
      RunAppend(Step(s, a[0]), a[1..], b);
    } else {
      assert a + b == b;
    }
  }

  /** The reply does not report exactly `done` or `error`. */
  predicate AnalysisReplyContinues(ex: Exchange) {
    var o := ReplyOutcome(ex.reply);
    !(o.Ok? && AnalysisStopsOn(ReportedStatus(o)))
  }

  /** There is no bound on analysis polling: however many ticks report
      anything but exactly `done` or `error` (`completed`, `DONE`, a failed
      request, ...), the timer stays armed and no result is fetched. */
  lemma {:induction false} AnalysisPollsWithoutBound(s: Session, es: seq<Event>)
    requires s.analysisPolling
    requires forall i :: 0 <= i < |es| ==> es[i].AnalysisTimer? && AnalysisReplyContinues(es[i].ex)
    ensures var r := Run(s, es);
      && r.analysisPolling
      && r.latestAnalysisResult == s.latestAnalysisResult
      && r.currentAnalysisId == s.currentAnalysisId
      && r.currentUpload == s.currentUpload
    decreases |es|
  {
    if es != [] {
      var s1 := AnalysisTimerStep(s, es[0].ex, es[0].resultEx);
      AnalysisPollsWithoutBound(s1, es[1..]);
    }
  }

  /** `completed` is such a status. */
  lemma CompletedDoesNotEndAnalysis(ex: Exchange)
    requires ReplyOutcome(ex.reply) == Ok(JsonBody(Obj(map["status" := Str("completed")])))
    ensures AnalysisReplyContinues(ex)
  {
  }

  /** A tick reporting exactly `done` disarms the timer and fetches the result
      once; from then on the timer no longer fires, so no further fetch
      happens until a new analysis is started. */
  lemma DoneFetchesResultOnce(s: Session, ex: Exchange, resultEx: Exchange, later: Exchange, laterResult: Exchange)
    requires Invariant(s) && s.analysisPolling
    requires ReplyOutcome(ex.reply).Ok? && ReportedStatus(ReplyOutcome(ex.reply)) == Str("done")
    ensures var s1 := Step(s, AnalysisTimer(ex, resultEx));
      && !s1.analysisPolling
      && s1.analyzeEnabled
      && (ReplyOutcome(resultEx.reply).Ok? ==> s1.latestAnalysisResult == AsValue(ReplyOutcome(resultEx.reply).value))
      && (ReplyOutcome(resultEx.reply).Err? ==> s1.latestAnalysisResult == Null)
      && Step(s1, AnalysisTimer(later, laterResult)) == s1
  {
    var t := AnalysisPoll(s, ex);
    var s1 := AnalysisTimerStep(s, ex, resultEx);
    assert t.fetchResult;
    assert t.next.currentAnalysisId == s.currentAnalysisId;
  }

  /** A 401 during either poll runs the token prompt and nothing else: the
      timer stays armed, and the next tick uses the new token. */
  lemma UnauthorizedTickKeepsPolling(s: Session, ex: Exchange, resultEx: Exchange)
    requires ex.reply.Responded? && ex.reply.response.status == 401
    ensures s.uploadPolling ==> Step(s, UploadTimer(ex)) == s.(token := HandleUnauthorized(s.token, ex.promptInput))
    ensures s.analysisPolling ==> Step(s, AnalysisTimer(ex, resultEx)) == s.(token := HandleUnauthorized(s.token, ex.promptInput))
  {
    var f := Fetch(s, ex);
    assert f.outcome.Err? && f.session == s.(token := HandleUnauthorized(s.token, ex.promptInput));
    if s.uploadPolling {
      var r := UploadTimerStep(s, ex);
    }
    if s.analysisPolling {
      var r := AnalysisTimerStep(s, ex, resultEx);
    }
  }

  /** Failed status requests leave the upload poll armed and the session as
      it was, save the token. */
  lemma {:induction false} UploadPollSurvivesFailures(s: Session, es: seq<Event>)
    requires forall i :: 0 <= i < |es| ==> es[i].UploadTimer? && ReplyOutcome(es[i].ex.reply).Err?
    ensures Run(s, es) == s.(token := Run(s, es).token)
    decreases |es|
  {
    if es != [] {
      UploadPollSurvivesFailures(Step(s, es[0]), es[1..]);
    }
  }

  /** Any number of failed status requests followed by a reply of exactly
      `ready` or `ready_for_analysis` still ends the upload poll with analysis
      unblocked. */
  lemma TransientFailuresThenReady(s: Session, failures: seq<Event>, ready: Exchange)
    requires s.uploadPolling
    requires forall i :: 0 <= i < |failures| ==> failures[i].UploadTimer? && ReplyOutcome(failures[i].ex.reply).Err?
    requires ReplyOutcome(ready.reply).Ok? && UploadReadyOn(ReportedStatus(ReplyOutcome(ready.reply)))
    ensures var r := Run(s, failures + [UploadTimer(ready)]);
      !r.uploadPolling && r.analyzeEnabled
  {
    RunAppend(s, failures, [UploadTimer(ready)]);
    UploadPollSurvivesFailures(s, failures);
    var mid := Run(s, failures);
    assert Run(mid, [UploadTimer(ready)]) == Step(mid, UploadTimer(ready));
  }

  /** A failed upload leaves the delete button disabled, so a click on it
      does nothing, even though the previous upload is still on record. */
  lemma FailedUploadDisablesDelete(s: Session, reply: XhrReply, promptInput: Option<string>, confirmed: bool, ex: Exchange)
    requires s.uploadEnabled && s.selectedFile.Some? && !UploadAccepted(reply)
    ensures var s1 := Step(s, ClickUpload(reply, promptInput));
      && s1.currentUpload == s.currentUpload
      && !s1.deleteEnabled
      && Step(s1, ClickDelete(confirmed, ex)) == s1
  {
  }

  /** The prompt takes any non-blank answer, including a token that the
      Authorization header cannot carry. */
  lemma PromptAcceptsUnsendableToken()
    ensures HandleUnauthorized(InitialToken, Some("\U{0100}")) == "\U{0100}"
    ensures !HeaderSafe("\U{0100}")
  {
    TrimUnpadded("\U{0100}");
  }

  /** With such a token, an upload throws before anything is sent and
      leaves every button disabled and both timers disarmed: until another
      file is chosen, no click does anything. */
  lemma UnsendableTokenStrandsUpload(s: Session, reply: XhrReply, promptInput: Option<string>, e: Event)
    requires s.uploadEnabled && s.selectedFile.Some? && !HeaderSafe(s.token)
    requires e.ClickUpload? || e.ClickAnalyze? || e.ClickDelete? || e.ClickDownload?
    ensures var s1 := Step(s, ClickUpload(reply, promptInput));
      && !s1.uploadPolling && !s1.analysisPolling
      && s1.token == s.token && s1.currentUpload == s.currentUpload
      && Step(s1, e) == s1
  {
  }

  /** There is no generation fencing: a status reply that lands after the
      session was reset (its request was already in flight) is still merged,
      and becomes the whole upload record. */
  lemma LateStatusReplyIsApplied(s: Session, ex: Exchange, fields: map<string, Value>)
    requires ReplyOutcome(ex.reply) == Ok(JsonBody(Obj(fields)))
    ensures UploadPoll(ResetState(s), ex).next.currentUpload == Obj(fields)
  {
    MergeIntoNull(Obj(fields));
  }
}

=== FILE: wrappers.dfy ===
/** Optional values and success/failure results, used where the program either
    has nothing (`null`) or throws. */
module Wrappers {

  datatype Option<+T> = None | Some(value: T)

  /** `Ok(value)` for a normal completion, `Err(error)` for a thrown error. */
  datatype Result<+T, +E> = Ok(value: T) | Err(error: E)
}
